=== FILE: README.md ===
# Movie catalog front-end: the pure logic under the views

This project models, in Dafny, the sequential logic inside the catalog's
React front-end:

- **Embed-source selection.** `MultiSourcePlayer`, `RussianVoicePlayer` and
  `SimplePlayer` each hold a fixed, ordered list of URL builders. Each builder
  is a pure function of the IMDb id, the TMDB id and the media type. Every
  player offers one tab per builder that produced a URL. The first tab is the
  default, and a player with no tabs shows an "unavailable" panel. The shared
  filter is `EmbedSources.Available`. The tab strip that the Russian-audio
  player and the simple player share is `Tabs`.
- **Session store** (`AuthContext`). This covers the translation of
  identity-provider error codes into Russian messages, and the projection of
  a provider user onto `{email, name}`. It also covers the loading flag and
  the `{success, error}` results of `login`, `signup` and `resetPassword`. The
  provider is abstract: each of its calls is an input that says whether it
  resolved or rejected.
- **Auth dialog** (`AuthModal`). This is a record-valued state machine over
  mode, form, messages and the `submitting` flag. Each asynchronous handler is
  split at its `await` into a `Begin…` phase and a `Finish…` phase. The first
  phase issues a request; the second consumes the reply.
- **Watchlist toggle and routing** (`MovieCard`, `Hero`, with the shared
  `Media` module). This covers media-type inference, the
  `/detail/{mediaType}/{id}` route and a parser that reads it back, the one
  store call a toggle makes, and the rating-visibility condition.

JavaScript truthiness of an optional string is `Text.Truthy`: the value is
present and not `""`. Ids are modelled by the text they interpolate into a
URL. The media type is an arbitrary string, so `mediaType === 'tv'` is a
real test.

`logout` does not catch, so a rejected sign-out reaches the caller untranslated
(`AuthContext.Logout`).

## Model

| member | source | states |
|---|---|---|
| EmbedSources.Available | frontend/src/components/MultiSourcePlayer.js:96 | Every offered source produced a URL. The offered list is an order-preserving subsequence of the declared list, and its length is the number of producing builders. |
| EmbedSources.AvailableMembers | frontend/src/components/MultiSourcePlayer.js:96 | A source is offered exactly when it is declared and its builder produced a URL. |
| EmbedSources.AvailableAppend | frontend/src/components/MultiSourcePlayer.js:96 | Filtering two lists joined together gives the two filtered lists joined together. |
| EmbedSources.OnlyOneSkipped | frontend/src/components/MultiSourcePlayer.js:96 | When exactly one builder produces nothing, the offered list is the declared list without that one entry. |
| MultiSourcePlayer.Sources | frontend/src/components/MultiSourcePlayer.js:15-93 | There are six sources, named in declaration order, and no builder throws. |
| MultiSourcePlayer.VidSrcCarriesId | frontend/src/components/MultiSourcePlayer.js:18-25 | A VidSrc URL carries the IMDb id when there is one, otherwise the TMDB id. |
| MultiSourcePlayer.VidSrcToCarriesId | frontend/src/components/MultiSourcePlayer.js:31-38 | A VidSrc.to URL carries the IMDb id when there is one, otherwise the TMDB id. |
| MultiSourcePlayer.TwoEmbedCarriesId | frontend/src/components/MultiSourcePlayer.js:44-51 | A 2Embed URL carries the IMDb id when there is one, otherwise the TMDB id. |
| MultiSourcePlayer.SuperEmbedCarriesId | frontend/src/components/MultiSourcePlayer.js:57-65 | A SuperEmbed URL carries the IMDb id when there is one, otherwise the TMDB id. |
| MultiSourcePlayer.EmbedderCarriesId | frontend/src/components/MultiSourcePlayer.js:71-76 | An Embedder URL exists only with an IMDb id, and it carries that id. |
| MultiSourcePlayer.NontonGoCarriesId | frontend/src/components/MultiSourcePlayer.js:82-89 | A NontonGo URL carries the IMDb id when there is one, otherwise the TMDB id. |
| MultiSourcePlayer.EverySourceCarriesPreferredId | frontend/src/components/MultiSourcePlayer.js:15-93 | Every URL any of the six sources produces carries the preferred id: IMDb before TMDB. |
| MultiSourcePlayer.ImdbIgnoresTmdb | frontend/src/components/MultiSourcePlayer.js:15-93 | With an IMDb id, changing the TMDB id changes no URL. |
| MultiSourcePlayer.ImdbAllOffered | frontend/src/components/MultiSourcePlayer.js:15-96 | With an IMDb id, all six sources are offered, in declaration order. |
| MultiSourcePlayer.ImdbOfferedUrlsUseImdb | frontend/src/components/MultiSourcePlayer.js:15-96 | With an IMDb id, every offered URL carries it. |
| MultiSourcePlayer.TmdbOnlyProducing | frontend/src/components/MultiSourcePlayer.js:15-93 | With only a TMDB id, every builder except Embedder produces a URL. |
| MultiSourcePlayer.TmdbOnlyFiveSources | frontend/src/components/MultiSourcePlayer.js:69-96 | With only a TMDB id, exactly five sources are offered, and Embedder is not one of them. |
| MultiSourcePlayer.TmdbOfferedUrlsUseTmdb | frontend/src/components/MultiSourcePlayer.js:15-96 | With only a TMDB id, every offered URL carries it. |
| MultiSourcePlayer.NoIdsNoSources | frontend/src/components/MultiSourcePlayer.js:96-98 | With neither id, nothing is offered. |
| MultiSourcePlayer.AvailableIffSomeId | frontend/src/components/MultiSourcePlayer.js:96-98 | Some source is offered if and only if at least one id is present. |
| MultiSourcePlayer.SuperEmbedKind | frontend/src/components/MultiSourcePlayer.js:58-60 | With an IMDb id, the SuperEmbed URL ends in `&tv=1` exactly when the media type is "tv", and in `&movie=1` otherwise. |
| MultiSourcePlayer.TwoEmbedTmdbAlwaysSeries | frontend/src/components/MultiSourcePlayer.js:47-48 | The 2Embed TMDB fallback always uses the `embedtv` path, whatever the media type. |
| MultiSourcePlayer.SelectTab | frontend/src/components/MultiSourcePlayer.js:180-184 | A tab click selects that tab, sets loading and clears the error. |
| MultiSourcePlayer.OnLoad | frontend/src/components/MultiSourcePlayer.js:229 | An iframe load ends loading and keeps the selection and the error flag. |
| MultiSourcePlayer.OnError | frontend/src/components/MultiSourcePlayer.js:230-233 | An iframe error ends loading, shows the error and keeps the selection. |
| MultiSourcePlayer.SelectionStaysInRange | frontend/src/components/MultiSourcePlayer.js:177-184 | Any run of events whose clicks land on drawn tabs keeps the selection on a drawn tab. |
| MultiSourcePlayer.OpensInRange | frontend/src/components/MultiSourcePlayer.js:10-12 | The player opens on the first tab, loading and without error. From there, any run of clicks on drawn tabs and iframe events keeps the selection on a drawn tab whenever there is one. |
| MultiSourcePlayer.InitialSelectionRenders | frontend/src/components/MultiSourcePlayer.js:10-136 | From the opening state, any run of clicks on offered tabs and iframe events leaves a selection that indexes an offered source, which is what `Render` needs. |
| MultiSourcePlayer.Render | frontend/src/components/MultiSourcePlayer.js:96-136 | The "unavailable" panel shows exactly when neither id is present. Otherwise the selected offered source's URL is embedded, there is one tab per offered source, named after it and in order, and the spinner and error overlays follow the state. |
| RussianVoicePlayer.Sources | frontend/src/components/RussianVoicePlayer.js:14-96 | There are six sources, named in declaration order, and no builder throws. |
| RussianVoicePlayer.VidSrcRuBuilds | frontend/src/components/RussianVoicePlayer.js:17-23 | With a TMDB id, the URL carries it and ends in `&ds_lang=ru`. |
| RussianVoicePlayer.VidSrcNetRuBuilds | frontend/src/components/RussianVoicePlayer.js:31-36 | With a TMDB id, the URL carries it and ends in `?lang=ru`. |
| RussianVoicePlayer.EmbedSuRuBuilds | frontend/src/components/RussianVoicePlayer.js:44-49 | With a TMDB id, the URL carries it and ends in `?lang=ru`. |
| RussianVoicePlayer.TwoEmbedRuBuilds | frontend/src/components/RussianVoicePlayer.js:57-63 | With a TMDB id, the URL carries it and ends in `?lang=ru`. |
| RussianVoicePlayer.VidSrcXyzRuBuilds | frontend/src/components/RussianVoicePlayer.js:71-76 | With a TMDB id, the URL carries it and ends in `&lang=ru`. |
| RussianVoicePlayer.MultiEmbedRuBuilds | frontend/src/components/RussianVoicePlayer.js:84-90 | With a TMDB id, the URL carries it and ends in `&lang=ru`. |
| RussianVoicePlayer.EverySourceRussianTmdb | frontend/src/components/RussianVoicePlayer.js:14-96 | With a TMDB id, every builder produces a URL that carries it and asks for Russian audio. |
| RussianVoicePlayer.UrlsIgnoreImdb | frontend/src/components/RussianVoicePlayer.js:9-96 | The IMDb id the component receives never influences a URL. |
| RussianVoicePlayer.ThrowingBuilderSkipped | frontend/src/components/RussianVoicePlayer.js:99-105 | A builder that throws is not offered, and fewer sources than declared are offered. |
| RussianVoicePlayer.TmdbAllOffered | frontend/src/components/RussianVoicePlayer.js:14-105 | With a TMDB id, all six sources are offered, in declaration order. |
| RussianVoicePlayer.OfferedUrlsRussian | frontend/src/components/RussianVoicePlayer.js:14-105 | Every offered URL carries the TMDB id and asks for Russian audio. |
| RussianVoicePlayer.AvailableIffTmdb | frontend/src/components/RussianVoicePlayer.js:99-107 | Something is offered if and only if a TMDB id is present. |
| RussianVoicePlayer.TwoEmbedKind | frontend/src/components/RussianVoicePlayer.js:59-60 | The 2Embed URL takes the `embed/` path exactly for "movie" and `embedtv/` otherwise. |
| RussianVoicePlayer.MultiEmbedKind | frontend/src/components/RussianVoicePlayer.js:86-87 | The MultiEmbed URL asks for `movie=1` exactly for "movie" and `tv=1` otherwise. |
| Tabs.SelectTab | frontend/src/components/RussianVoicePlayer.js:193-196 | A tab click selects that tab and sets loading. SimplePlayer.js:99-102 is the same handler. |
| Tabs.OnLoad | frontend/src/components/RussianVoicePlayer.js:238 | An iframe load ends loading and keeps the selection. SimplePlayer.js:131 is the same handler. |
| Tabs.SelectionStaysInRange | frontend/src/components/RussianVoicePlayer.js:190-196 | Any run of events whose clicks land on drawn tabs keeps the selection on a drawn tab. |
| Tabs.OpensInRange | frontend/src/components/RussianVoicePlayer.js:10-11 | The player opens on the first tab, loading. From there, clicks on drawn tabs keep the selection on a drawn tab whenever there is one. |
| RussianVoicePlayer.InitialSelectionRenders | frontend/src/components/RussianVoicePlayer.js:10-136 | From the opening state, any run of clicks on offered tabs and iframe loads leaves a selection that indexes an offered source, which is what `Render` needs. |
| RussianVoicePlayer.Render | frontend/src/components/RussianVoicePlayer.js:107-136 | The "no players" panel shows exactly when there is no TMDB id. Otherwise the selected source's URL is embedded; it carries the TMDB id and asks for Russian audio. |
| SimplePlayer.Sources | frontend/src/components/SimplePlayer.js:14-53 | There are six sources in declaration order, and every one has a URL. |
| SimplePlayer.EveryUrlCarriesTmdb | frontend/src/components/SimplePlayer.js:14-53 | Every URL carries the TMDB id. |
| SimplePlayer.AlwaysSixOffered | frontend/src/components/SimplePlayer.js:14-55 | Nothing is filtered out: six sources are always offered. |
| SimplePlayer.TwoEmbedKind | frontend/src/components/SimplePlayer.js:35-37 | 2Embed uses `/embed/` exactly for "movie" and `/embedtv/` otherwise. |
| SimplePlayer.SelectionAlwaysValid | frontend/src/components/SimplePlayer.js:96-101 | Starting from the first tab, tab clicks keep the selected index within 0..5. |
| SimplePlayer.Render | frontend/src/components/SimplePlayer.js:55 | The current source is the selected one of the six, and its URL carries the TMDB id. |
| AuthContext.HumanAuthError | frontend/src/contexts/AuthContext.js:79-88 | Each of the six known codes gets its fixed message. Any other, empty or missing code, or no error object, gets "Ошибка авторизации". The message is never empty. |
| AuthContext.MessagesIdentifyCodes | frontend/src/contexts/AuthContext.js:81-86 | Known codes get pairwise distinct messages, and none of them is the generic one. |
| Text.Before | frontend/src/contexts/AuthContext.js:29 | `split("@")[0]` is the prefix before the first '@', or the whole string when there is no '@'. |
| AuthContext.ProjectUser | frontend/src/contexts/AuthContext.js:27-30 | The e-mail is copied. The name is the display name if set, else the e-mail's local part if the e-mail is set, else "User". |
| AuthContext.ProjectedNameEmpty | frontend/src/contexts/AuthContext.js:29 | The projected name is empty exactly when there is no display name and the e-mail starts with '@'. |
| AuthContext.Notify | frontend/src/contexts/AuthContext.js:25-35 | A notification ends loading. A null user clears the session user; any other user replaces it with its projection. |
| AuthContext.SessionFollowsLastNotification | frontend/src/contexts/AuthContext.js:22-35 | The session starts as no user and loading. After any notifications it depends only on the last one. |
| AuthContext.Login | frontend/src/contexts/AuthContext.js:39-46 | Login makes one sign-in call. Success is reported exactly when the provider resolves; otherwise the result is failure with the translated message. |
| AuthContext.Signup | frontend/src/contexts/AuthContext.js:48-56 | Signup creates the account first. Its only other call sets the display name, made exactly when account creation succeeded and the name is non-empty. The first rejection decides the translated error. |
| AuthContext.ResetPassword | frontend/src/contexts/AuthContext.js:62-69 | ResetPassword makes one reset call and reports success or the translated failure. |
| AuthContext.ResetReportsLikeLogin | frontend/src/contexts/AuthContext.js:39-69 | For the same provider outcome, `resetPassword` and `login` give the same result. |
| AuthContext.Logout | frontend/src/contexts/AuthContext.js:58-60 | Logout gives no result. A rejected sign-out is passed on as raised, with no translation. |
| AuthModal.ErrorOr | frontend/src/components/AuthModal.js:33 | `result?.error \|\| fallback` is the reply's non-empty error, or else the fallback. It is never empty. |
| AuthModal.BeginSubmit | frontend/src/components/AuthModal.js:21-40 | Messages are cleared. Login mode always requests a login. Sign-up mode with an empty field shows "Заполните все поля", makes no request and clears `submitting`. |
| AuthModal.FinishSubmit | frontend/src/components/AuthModal.js:29-50 | On success the dialog closes and the form is emptied. On failure the reply's error or the mode's default is shown. `submitting` ends false either way. |
| AuthModal.HandleSubmit | frontend/src/components/AuthModal.js:21-51 | After the whole handler, on every path, `submitting` is false, the mode is kept and no info message is left. |
| AuthModal.BeginForgot | frontend/src/components/AuthModal.js:53-63 | With no e-mail, an error is shown, nothing is requested and `submitting` is untouched. Otherwise a reset is requested for the e-mail. |
| AuthModal.FinishForgot | frontend/src/components/AuthModal.js:64-71 | Success shows the info message, failure shows the reply's error or the default. The dialog stays open with the form kept, and `submitting` ends false. |
| AuthModal.HandleForgot | frontend/src/components/AuthModal.js:53-72 | With an e-mail, `submitting` ends false. Without one it is unchanged. The form is never reset. |
| AuthModal.HandleChange | frontend/src/components/AuthModal.js:74-77 | Only the named field changes. Both messages clear. |
| AuthModal.SwitchMode | frontend/src/components/AuthModal.js:79-83 | The mode flips, both messages clear and the form is emptied. |
| AuthModal.RequestClose | frontend/src/components/AuthModal.js:94 | Closing via the backdrop or the X button calls `onClose` exactly when not submitting, and changes no state. |
| AuthModal.PendingCannotClose | frontend/src/components/AuthModal.js:116 | While a login, sign-up or reset request is awaited, closing is a no-op. |
| AuthModal.ActKeepsSettled | frontend/src/components/AuthModal.js:16-83 | Every handler, run to completion from a settled dialog, leaves it settled: nothing in flight, and no error and info message at once. |
| AuthModal.RunKeepsSettled | frontend/src/components/AuthModal.js:16-83 | Any sequence of user actions keeps the dialog settled. |
| AuthModal.OpenedDialogStaysSettled | frontend/src/components/AuthModal.js:7-12 | The dialog opens in login mode with nothing in flight and no messages, which is settled. Any sequence of user actions from there keeps it settled. |
| AuthModal.WrongPasswordShown | frontend/src/components/AuthModal.js:28-33 | A sign-in rejected with `auth/wrong-password` keeps the dialog open with "Неверный пароль" shown and the form kept. |
| AuthModal.SignupSuccessCloses | frontend/src/components/AuthModal.js:40-43 | A successful sign-up closes the dialog and empties the form. |
| Text.DecimalRoundTrip | frontend/src/components/MovieCard.js:16 | The decimal text of an id reads back as the same id. |
| Text.DecimalCanonical | frontend/src/components/MovieCard.js:16 | Only the plain decimal text of an id reads as an id: no sign, no leading zero, so any text that reads back is exactly `${id}` for the id it reads as. |
| Media.DetailPathRoundTrip | frontend/src/components/MovieCard.js:16 | The detail path reads back as its media type and id, when the media type has no '/'. |
| Media.ParsedPathIsDetailPath | frontend/src/components/MovieCard.js:16 | Any path that reads back as a route is that route's `/detail/{mediaType}/{id}` path, and the media type has no '/'. With the forward round trip, a read-back pins the exact path. |
| Media.DetailPathInjective | frontend/src/components/Hero.js:26 | Two slash-free routes give the same path only if they are the same route. |
| MovieCard.MediaTypeOf | frontend/src/components/MovieCard.js:12 | The type is `media_type` if set. Otherwise it is "movie" exactly when `title` is set, and "tv" otherwise. |
| MovieCard.ClickPath | frontend/src/components/MovieCard.js:15-17 | The card opens the detail page of its derived media type and its id: when that type has no '/', the destination reads back as exactly that type and id. Since only a detail path reads back (`Media.ParsedPathIsDetailPath`), this fixes the path to `/detail/{mediaType}/{id}`. |
| MovieCard.Toggle | frontend/src/components/MovieCard.js:19-26 | A listed item gets a remove by id. Otherwise the item is added with `media_type` set to the derived type and every other field unchanged. |
| MovieCard.ToggleFlipsMembership | frontend/src/components/MovieCard.js:19-26 | When the store's answer is accurate, a toggle flips the item's membership and leaves other ids alone. |
| MovieCard.ToggleKeepsExplicitType | frontend/src/components/MovieCard.js:24 | An item that already has `media_type` is added unchanged. |
| MovieCard.Click | frontend/src/components/MovieCard.js:15-26 | The watchlist button makes one store call and no navigation. Any other click only navigates to the card's detail page. |
| MovieCard.Render | frontend/src/components/MovieCard.js:49-80 | The rating text and the rating badge both show exactly when `vote_average > 0`. |
| Hero.HeroMediaType | frontend/src/components/Hero.js:25 | The type is "movie" exactly when `title` is set, and "tv" otherwise. |
| Hero.Press | frontend/src/components/Hero.js:12-27 | With no item nothing happens. Play and info navigate to the detail page. The toggle removes by id, or adds the item as given. |
| Hero.PlayAndInfoAgree | frontend/src/components/Hero.js:76-85 | Play and info open the same page, and that page reads back as the banner's route. |
| Hero.IgnoresMediaTypeField | frontend/src/components/Hero.js:24-26 | The banner's destination does not depend on `media_type`. |
| Hero.AgreesWithCardWithoutMediaType | frontend/src/components/Hero.js:25 | Without `media_type`, the banner and a card open the same page. With a `media_type` that disagrees with `title`, they open different pages. |
| Hero.ToggleFlipsMembership | frontend/src/components/Hero.js:16-22 | The toggle flips membership, leaves other ids alone and adds the item exactly as given. |

## Left out

- The identity provider (sign-in, account creation, profile update, password reset, sign-out, state notifications) is a foreign library. Each call is an input outcome. The order in which the provider fires a notification relative to `updateProfile` is its own behaviour, so the model does not say which name the session shows right after a sign-up.
- The watchlist store is not part of this model. `Media.ApplyMembership` assumes only that adding makes an id present and removing makes it absent. Persistence and re-add overwrite semantics are not stated.
- The catalog service helpers and every network fetch in the pages are not modelled; they are network I/O.
- Markup, animation, iframe attributes and load timing are not modelled. Iframe load and error are opaque events.
- `vote_average.toFixed(1)` and the release-year date parsing are not modelled. They involve floating-point formatting and locale/clock behaviour. The rating is a `real` and is only compared with 0.
- The navigation bar, the row scroller and the list page are not modelled. They are DOM plumbing or a render gate.
- MultiSourcePlayer.Render: requires the selection to index an offered source. The model assumes the player's ids and media type stay fixed while it is open, because no caller of the player is part of this model. Under that assumption `InitialSelectionRenders` keeps the requirement true. Two cases are not modelled. Props that shrink the list would make `currentSource` undefined and crash. Props that grow the list, such as an IMDb id arriving and inserting Embedder at index 4, make the same `selectedSource` name a different source without a crash (MultiSourcePlayer.js lines 96 and 135).
- RussianVoicePlayer.Render: requires the selection to index an offered source, for the same reason as MultiSourcePlayer.Render.
- SimplePlayer.Render: requires the selection to be one of the six tabs, which `SelectionAlwaysValid` keeps true.
- Ids are modelled as the text they interpolate. A numeric TMDB id of 0, which is falsy but renders as "0", is not modelled. Movie ids are non-negative.
- Media.DetailPath: renders the id in plain decimal. This matches `${id}` only when the id is a safe integer (below 2^53). JavaScript numbers from 1e21 up render in exponent notation (`1e+21`), and larger ids are not exact. The same assumption holds for `MovieCard.ClickPath` and `Media.DetailPathRoundTrip`.
- The browser's own `required`-field validation, which can block a submit before `handleSubmit` runs, is not modelled. Only the handler's own checks are.
- Handlers are not re-entered while `submitting` is true, because the buttons and inputs are disabled. The model runs each handler to completion between user actions.

=== FILE: auth_context.dfy ===
/** The session store. The identity provider is not modelled: each of its
    operations is an input saying whether it resolved or rejected, and its
    state-change notifications are a sequence of optional provider users. */
module AuthContext {
  import opened Wrappers
  import opened Text

  /** What a `catch (e)` receives: a nullish value, or an error object whose
      `code` property may be missing. */
  datatype Caught = Nullish | Thrown(code: Option<string>)

  /** How one awaited provider call ended. */
  datatype Outcome = Resolved | Rejected(caught: Caught)

  /** `e?.code || ""`. */
  function CodeOf(e: Caught): string {
    if e.Thrown? && e.code.Some? then e.code.value else ""
  }

  const GenericMessage := "Ошибка авторизации"

  /** The provider error codes the store knows, each with its message. */
  const KnownMessages: map<string, string> := map[
    "auth/invalid-email" := "Неверный email",
    "auth/user-not-found" := "Пользователь не найден",
    "auth/wrong-password" := "Неверный пароль",
    "auth/email-already-in-use" := "Этот email уже зарегистрирован",
    "auth/weak-password" := "Слишком простой пароль (минимум 6 символов)",
    "auth/too-many-requests" := "Слишком много попыток, попробуйте позже"
  ]

  /** `humanAuthError`: the message for a caught provider error. Total: an
      unknown, empty or missing code, or no error object at all, gives the
      generic message. */
  function HumanAuthError(e: Caught): (message: string)
    ensures CodeOf(e) in KnownMessages ==> message == KnownMessages[CodeOf(e)]
    ensures CodeOf(e) !in KnownMessages ==> message == GenericMessage
    ensures message != ""
  {
    var code := CodeOf(e);
    if code == "auth/invalid-email" then "Неверный email"
    else if code == "auth/user-not-found" then "Пользователь не найден"
    else if code == "auth/wrong-password" then "Неверный пароль"
    else if code == "auth/email-already-in-use" then "Этот email уже зарегистрирован"
    else if code == "auth/weak-password" then "Слишком простой пароль (минимум 6 символов)"
    else if code == "auth/too-many-requests" then "Слишком много попыток, попробуйте позже"
    else GenericMessage
  }

  /** Distinct known codes get distinct messages, none of them the generic one,
      so a message identifies the code it came from. */
  lemma MessagesIdentifyCodes(e1: Caught, e2: Caught)
    requires CodeOf(e1) in KnownMessages
    ensures HumanAuthError(e1) != GenericMessage
    ensures HumanAuthError(e1) == HumanAuthError(e2) <==> CodeOf(e1) == CodeOf(e2)
  {
    // The seven messages have pairwise different lengths.
    var m1, m2 := HumanAuthError(e1), HumanAuthError(e2);
    assert |m1| == |KnownMessages[CodeOf(e1)]|;
    if CodeOf(e2) in KnownMessages {
      assert |m2| == |KnownMessages[CodeOf(e2)]|;
    } else {
      assert |m2| == 18;
    }
  }

  /** The part of a provider user the store reads. */
  datatype ProviderUser = ProviderUser(email: Option<string>, displayName: Option<string>)

  /** The store's `{ email, name }` projection. */
  datatype User = User(email: Option<string>, name: string)

  /** The display name when set, else the local part of the e-mail, else "User". */
  function ProjectUser(u: ProviderUser): (r: User)
    ensures r.email == u.email
    ensures Truthy(u.displayName) ==> r.name == u.displayName.value
    ensures !Truthy(u.displayName) && Truthy(u.email) ==>
              StartsWith(u.email.value, r.name) && '@' !in r.name && (r.name == u.email.value || u.email.value[|r.name|] == '@')
    ensures !Truthy(u.displayName) && !Truthy(u.email) ==> r.name == "User"
  {
    var name :=
      if Truthy(u.displayName) then u.displayName.value
      else if Truthy(u.email) then Before(u.email.value, '@')
      else "User";
    User(u.email, name)
  }

  /** The name the store shows is empty only when the e-mail starts with '@'. */
  lemma ProjectedNameEmpty(u: ProviderUser)
    ensures ProjectUser(u).name == "" <==> !Truthy(u.displayName) && Truthy(u.email) && u.email.value[0] == '@'
  {
  }

  datatype Session = Session(user: Option<User>, loading: bool)

  /** Before the first notification: no user, still loading. */
  const Initial := Session(None, true)

  /** The `onAuthStateChanged` callback: the projection replaces the session
      user (or clears it) and loading ends. */
  function Notify(s: Session, u: Option<ProviderUser>): (r: Session)
    ensures !r.loading
    ensures r.user.None? <==> u.None?
    ensures u.Some? ==> r.user == Some(ProjectUser(u.value))
  {
    match u
    case None => Session(None, false)
    case Some(p) => Session(Some(ProjectUser(p)), false)
  }

  function Replay(s: Session, notifications: seq<Option<ProviderUser>>): Session
    decreases |notifications|
  {
    if |notifications| == 0 then s else Replay(Notify(s, notifications[0]), notifications[1..])
  }

  /** After any notifications the session depends only on the last one; with
      none the store is still loading. */
  lemma {:induction false} SessionFollowsLastNotification(s: Session, notifications: seq<Option<ProviderUser>>)
    ensures |notifications| == 0 ==> Replay(s, notifications) == s
    ensures |notifications| > 0 ==> Replay(s, notifications) == Notify(Initial, notifications[|notifications| - 1])
    decreases |notifications|
  {
    if |notifications| > 0 {
      SessionFollowsLastNotification(Notify(s, notifications[0]), notifications[1..]);
    }
  }

  /** A call the store makes to the identity provider. */
  datatype ProviderCall =
    | SignIn(email: string, password: string)
    | CreateAccount(email: string, password: string)
    | UpdateProfile(displayName: string)
    | SendPasswordReset(email: string)
    | SignOut

  /** `{ success: true }` or `{ success: false, error }`. */
  datatype AuthResult = AuthResult(success: bool, error: Option<string>)

  /** An operation's result together with the provider calls it made, in order. */
  datatype Run = Run(result: AuthResult, calls: seq<ProviderCall>)

  /** A successful result carries no error; a failed one carries the message
      translated from what the provider rejected with. */
  predicate Reports(r: AuthResult, outcome: Outcome) {
    && (r.success <==> outcome.Resolved?)
    && (outcome.Resolved? ==> r.error.None?)
    && (outcome.Rejected? ==> r.error == Some(HumanAuthError(outcome.caught)))
  }

  function Settle(outcome: Outcome): AuthResult {
    match outcome
    case Resolved => AuthResult(true, None)
    case Rejected(e) => AuthResult(false, Some(HumanAuthError(e)))
  }

  /** `login`: one sign-in call; never throws. */
  function Login(email: string, password: string, signIn: Outcome): (r: Run)
    ensures r.calls == [SignIn(email, password)]
    ensures Reports(r.result, signIn)
  {
    Run(Settle(signIn), [SignIn(email, password)])
  }

  /** `signup`: create the account, then set the display name only when one
      was given; the first rejection decides the error. */
  function Signup(name: string, email: string, password: string, create: Outcome, update: Outcome): (r: Run)
    ensures r.calls == [CreateAccount(email, password)] + (if create.Resolved? && name != "" then [UpdateProfile(name)] else [])
    ensures create.Rejected? ==> Reports(r.result, create)
    ensures create.Resolved? && name == "" ==> r.result == AuthResult(true, None)
    ensures create.Resolved? && name != "" ==> Reports(r.result, update)
  {
    match create
    case Rejected(e) => Run(Settle(create), [CreateAccount(email, password)])
    case Resolved =>
      if name == "" then Run(AuthResult(true, None), [CreateAccount(email, password)])
      else Run(Settle(update), [CreateAccount(email, password), UpdateProfile(name)])
  }

  /** `resetPassword`: one reset call; never throws. */
  function ResetPassword(email: string, send: Outcome): (r: Run)
    ensures r.calls == [SendPasswordReset(email)]
    ensures Reports(r.result, send)
  {
    Run(Settle(send), [SendPasswordReset(email)])
  }

  /** `resetPassword` reports exactly as `login` does for the same provider outcome. */
  lemma ResetReportsLikeLogin(email: string, password: string, outcome: Outcome)
    ensures ResetPassword(email, outcome).result == Login(email, password, outcome).result
  {
  }

  /** What awaiting `logout()` gives the caller. */
  datatype LogoutResult = Done | Raised(caught: Caught)

  /** `logout`: no result and no translation; a rejected sign-out reaches the
      caller as it was raised. */
  function Logout(signOut: Outcome): (r: LogoutResult)
    ensures r.Done? <==> signOut.Resolved?
    ensures signOut.Rejected? ==> r == Raised(signOut.caught)
  {
    match signOut
    case Resolved => Done
    case Rejected(e) => Raised(e)
  }
}

=== FILE: auth_modal.dfy ===
/** The login/sign-up dialog as a state machine. An asynchronous handler is
    split at its `await`: the first phase issues a request to the session
    store, the second consumes the store's reply. A reply is optional because
    the handlers read it through `result?.`. */
module AuthModal {
  import opened Wrappers
  import AuthContext

  datatype Form = Form(name: string, email: string, password: string)

  const EmptyForm := Form("", "", "")

  datatype Field = Name | Email | Password

  datatype Modal = Modal(isLogin: bool, form: Form, error: string, info: string, submitting: bool)

  const Initial := Modal(true, EmptyForm, "", "", false)

  const FillAllFields := "Заполните все поля"
  const LoginFailed := "Ошибка входа"
  const SignupFailed := "Ошибка регистрации"
  const EnterEmailForReset := "Введите email, чтобы отправить письмо для сброса пароля"
  const ResetFailed := "Не удалось отправить письмо для сброса пароля"
  const ResetSent := "Письмо для сброса пароля отправлено. Проверьте почту (и папку Спам)."

  /** The session-store operation a handler awaits. */
  datatype Request =
    | NoRequest
    | LoginRequest(email: string, password: string)
    | SignupRequest(name: string, email: string, password: string)
    | ResetRequest(email: string)

  /** A handler's effect: the new dialog state, the request it issued, and
      whether it called the parent's `onClose`. */
  datatype Step = Step(modal: Modal, request: Request, closeRequested: bool)

  type Reply = Option<AuthContext.AuthResult>

  predicate Succeeded(reply: Reply) {
    reply.Some? && reply.value.success
  }

  /** `result?.error || fallback`. */
  function ErrorOr(reply: Reply, fallback: string): (message: string)
    requires fallback != ""
    ensures message != ""
    ensures reply.Some? && reply.value.error.Some? && reply.value.error.value != "" ==> message == reply.value.error.value
    ensures reply.None? || reply.value.error.None? || reply.value.error.value == "" ==> message == fallback
  {
    if reply.Some? && reply.value.error.Some? && reply.value.error.value != "" then reply.value.error.value else fallback
  }

  /** `clearMessages`. */
  function ClearMessages(m: Modal): Modal {
    m.(error := "", info := "")
  }

  /** `handleSubmit` up to its `await`. In sign-up mode an empty field stops
      it before any request, and its `finally` clears `submitting`. */
  function BeginSubmit(m: Modal): (s: Step)
    ensures !s.closeRequested && s.modal.isLogin == m.isLogin && s.modal.form == m.form && s.modal.info == ""
    ensures m.isLogin ==> s.request == LoginRequest(m.form.email, m.form.password) && s.modal.submitting && s.modal.error == ""
    ensures !m.isLogin && (m.form.name == "" || m.form.email == "" || m.form.password == "") ==>
              s.request == NoRequest && !s.modal.submitting && s.modal.error == FillAllFields
    ensures !m.isLogin && m.form.name != "" && m.form.email != "" && m.form.password != "" ==>
              s.request == SignupRequest(m.form.name, m.form.email, m.form.password) && s.modal.submitting && s.modal.error == ""
  {
    var pending := ClearMessages(m).(submitting := true);
    if m.isLogin then Step(pending, LoginRequest(m.form.email, m.form.password), false)
    else if m.form.name == "" || m.form.email == "" || m.form.password == "" then
      Step(pending.(error := FillAllFields, submitting := false), NoRequest, false)
    else Step(pending, SignupRequest(m.form.name, m.form.email, m.form.password), false)
  }

  /** `handleSubmit` after its `await`: on success close and empty the form,
      otherwise show the reply's error or the mode's default; always clear
      `submitting`. */
  function FinishSubmit(m: Modal, reply: Reply): (s: Step)
    ensures !s.modal.submitting && s.request == NoRequest && s.modal.isLogin == m.isLogin && s.modal.info == m.info
    ensures s.closeRequested <==> Succeeded(reply)
    ensures Succeeded(reply) ==> s.modal.form == EmptyForm && s.modal.error == m.error
    ensures !Succeeded(reply) ==> s.modal.form == m.form && s.modal.error == ErrorOr(reply, if m.isLogin then LoginFailed else SignupFailed)
  {
    if Succeeded(reply) then Step(m.(form := EmptyForm, submitting := false), NoRequest, true)
    else
      var fallback := if m.isLogin then LoginFailed else SignupFailed;
      Step(m.(error := ErrorOr(reply, fallback), submitting := false), NoRequest, false)
  }

  /** The whole of `handleSubmit`, the reply being used only if a request was made. */
  function HandleSubmit(m: Modal, reply: Reply): (s: Step)
    ensures !s.modal.submitting
    ensures s.modal.isLogin == m.isLogin && s.modal.info == ""
  {
    var begun := BeginSubmit(m);
    if begun.request == NoRequest then begun
    else FinishSubmit(begun.modal, reply)
  }

  /** `handleForgotPassword` up to its `await`. With no e-mail it stops before
      its `try`, so `submitting` is left as it was. */
  function BeginForgot(m: Modal): (s: Step)
    ensures !s.closeRequested && s.modal.isLogin == m.isLogin && s.modal.form == m.form && s.modal.info == ""
    ensures m.form.email == "" ==> s.request == NoRequest && s.modal.error == EnterEmailForReset && s.modal.submitting == m.submitting
    ensures m.form.email != "" ==> s.request == ResetRequest(m.form.email) && s.modal.error == "" && s.modal.submitting
  {
    var cleared := ClearMessages(m);
    if m.form.email == "" then Step(cleared.(error := EnterEmailForReset), NoRequest, false)
    else Step(cleared.(submitting := true), ResetRequest(m.form.email), false)
  }

  /** `handleForgotPassword` after its `await`: an info message on success,
      an error otherwise; the dialog stays open and the form is kept. */
  function FinishForgot(m: Modal, reply: Reply): (s: Step)
    ensures !s.modal.submitting && s.request == NoRequest && !s.closeRequested && s.modal.form == m.form && s.modal.isLogin == m.isLogin
    ensures Succeeded(reply) ==> s.modal.info == ResetSent && s.modal.error == m.error
    ensures !Succeeded(reply) ==> s.modal.error == ErrorOr(reply, ResetFailed) && s.modal.info == m.info
  {
    if Succeeded(reply) then Step(m.(info := ResetSent, submitting := false), NoRequest, false)
    else Step(m.(error := ErrorOr(reply, ResetFailed), submitting := false), NoRequest, false)
  }

  function HandleForgot(m: Modal, reply: Reply): (s: Step)
    ensures m.form.email != "" ==> !s.modal.submitting
    ensures m.form.email == "" ==> s.modal.submitting == m.submitting
    ensures !s.closeRequested && s.modal.form == m.form
  {
    var begun := BeginForgot(m);
    if begun.request == NoRequest then begun
    else FinishForgot(begun.modal, reply)
  }

  /** `handleChange`: the named field takes the new value and both messages clear. */
  function HandleChange(m: Modal, field: Field, value: string): (r: Modal)
    ensures r.error == "" && r.info == ""
    ensures r.isLogin == m.isLogin && r.submitting == m.submitting
    ensures r.form.name == (if field == Name then value else m.form.name)
    ensures r.form.email == (if field == Email then value else m.form.email)
    ensures r.form.password == (if field == Password then value else m.form.password)
  {
    var form :=
      match field
      case Name => m.form.(name := value)
      case Email => m.form.(email := value)
      case Password => m.form.(password := value);
    ClearMessages(m).(form := form)
  }

  /** `switchMode`: the other mode, no messages, an empty form. */
  function SwitchMode(m: Modal): (r: Modal)
    ensures r.isLogin == !m.isLogin
    ensures r.error == "" && r.info == "" && r.form == EmptyForm
    ensures r.submitting == m.submitting
  {
    ClearMessages(m).(isLogin := !m.isLogin, form := EmptyForm)
  }

  /** The backdrop and the close button both call `onClose` only when not submitting. */
  function RequestClose(m: Modal): (s: Step)
    ensures s.closeRequested <==> !m.submitting
    ensures s.modal == m && s.request == NoRequest
  {
    Step(m, NoRequest, !m.submitting)
  }

  /** One user action, each handler run to completion. */
  datatype Action =
    | Submit(submitReply: Reply)
    | ForgotPassword(resetReply: Reply)
    | Change(field: Field, value: string)
    | ToggleMode
    | Close

  /** One action run to completion. `ForgotPassword` is accepted in either
      mode, although the dialog draws that button only when signing in, so
      the runs below cover every run the dialog allows and some more. */
  function Act(m: Modal, a: Action): Modal {
    match a
    case Submit(reply) => HandleSubmit(m, reply).modal
    case ForgotPassword(reply) => HandleForgot(m, reply).modal
    case Change(f, v) => HandleChange(m, f, v)
    case ToggleMode => SwitchMode(m)
    case Close => RequestClose(m).modal
  }

  function Run(m: Modal, actions: seq<Action>): Modal
    decreases |actions|
  {
    if |actions| == 0 then m else Run(Act(m, actions[0]), actions[1..])
  }

  /** Between user actions nothing is in flight, and the dialog never shows an
      error and an info message at once. */
  predicate Settled(m: Modal) {
    !m.submitting && (m.error == "" || m.info == "")
  }

  lemma ActKeepsSettled(m: Modal, a: Action)
    requires Settled(m)
    ensures Settled(Act(m, a))
  {
  }

  lemma {:induction false} RunKeepsSettled(m: Modal, actions: seq<Action>)
    requires Settled(m)
    ensures Settled(Run(m, actions))
    decreases |actions|
  {
    if |actions| > 0 {
      ActKeepsSettled(m, actions[0]);
      RunKeepsSettled(Act(m, actions[0]), actions[1..]);
    }
  }

  /** The dialog opens settled, so it stays settled whatever the user does. */
  lemma OpenedDialogStaysSettled(actions: seq<Action>)
    ensures Settled(Initial)
    ensures Settled(Run(Initial, actions))
  {
    RunKeepsSettled(Initial, actions);
  }

  /** While a request is awaited the dialog cannot be closed. */
  lemma PendingCannotClose(m: Modal, reply: Reply)
    ensures BeginSubmit(m).request != NoRequest ==> !RequestClose(BeginSubmit(m).modal).closeRequested
    ensures BeginForgot(m).request != NoRequest ==> !RequestClose(BeginForgot(m).modal).closeRequested
  {
  }

  /** A wrong password at sign-in keeps the dialog open and shows the
      store's message for that code. */
  lemma WrongPasswordShown(m: Modal)
    requires m.isLogin
    ensures var reply := AuthContext.Login(m.form.email, m.form.password,
                           AuthContext.Rejected(AuthContext.Thrown(Some("auth/wrong-password")))).result;
            var s := HandleSubmit(m, Some(reply));
            !s.closeRequested && s.modal.error == "Неверный пароль" && s.modal.form == m.form
  {
  }

  /** A successful sign-up closes the dialog and empties the form. */
  lemma SignupSuccessCloses(m: Modal, update: AuthContext.Outcome)
    requires !m.isLogin && m.form.name != "" && m.form.email != "" && m.form.password != ""
    requires update.Resolved?
    ensures var reply := AuthContext.Signup(m.form.name, m.form.email, m.form.password, AuthContext.Resolved, update).result;
            var s := HandleSubmit(m, Some(reply));
            s.closeRequested && s.modal.form == EmptyForm && s.modal.error == "" && !s.modal.isLogin
  {
  }
}

=== FILE: embed_sources.dfy ===
/** What the three players share: a source is a named URL builder, and the
    tabs a player offers are the sources whose builder produced a URL, kept in
    declaration order. */
module EmbedSources {

  /** The result of calling one `getUrl()` builder. `Threw` is what a builder
      that raised an exception yields; none of the modelled builders does. */
  datatype Outcome = Url(url: string) | NoUrl | Threw

  datatype Source = Source(name: string, outcome: Outcome)

  predicate Produces(s: Source) {
    s.outcome.Url?
  }

  /** `a` can be obtained from `b` by deleting elements: same relative order. */
  predicate Subsequence<T(==)>(a: seq<T>, b: seq<T>)
    decreases |b|
  {
    |a| == 0 || (|b| > 0 && if a[0] == b[0] then Subsequence(a[1..], b[1..]) else Subsequence(a, b[1..]))
  }

  /** The number of sources in `sources` whose builder produced a URL. */
  function CountProducing(sources: seq<Source>): nat {
    if |sources| == 0 then 0
    else (if Produces(sources[0]) then 1 else 0) + CountProducing(sources[1..])
  }

  /** A source that produces nothing makes the count fall short of the length. */
  lemma {:induction false} CountBelowLength(sources: seq<Source>, i: nat)
    requires i < |sources| && !Produces(sources[i])
    ensures CountProducing(sources) < |sources|
    decreases |sources|
  {
    if i > 0 {
      CountBelowLength(sources[1..], i - 1);
    } else {
      CountAtMostLength(sources[1..]);
    }
  }

  lemma {:induction false} CountAtMostLength(sources: seq<Source>)
    ensures CountProducing(sources) <= |sources|
    decreases |sources|
  {
    if |sources| > 0 {
      CountAtMostLength(sources[1..]);
    }
  }

  /** `sources.filter(s => s.getUrl() !== null)`, and equally the filter
      that treats a builder which throws as unavailable: only produced URLs
      survive, in their original order. */
  function Available(sources: seq<Source>): (r: seq<Source>)
    ensures forall i :: 0 <= i < |r| ==> Produces(r[i])
    ensures Subsequence(r, sources)
    ensures |r| == CountProducing(sources)
    decreases |sources|
  {
    if |sources| == 0 then []
    else if Produces(sources[0]) then [sources[0]] + Available(sources[1..])
    else Available(sources[1..])
  }

  /** The offered sources are exactly the producing ones. */
  lemma {:induction false} AvailableMembers(sources: seq<Source>)
    ensures forall s :: s in Available(sources) <==> s in sources && Produces(s)
    decreases |sources|
  {
    if |sources| > 0 {
      AvailableMembers(sources[1..]);
      assert sources == [sources[0]] + sources[1..];
    }
  }

  /** When every builder produces a URL nothing is filtered out. */
  lemma {:induction false} AllProducingKept(sources: seq<Source>)
    requires forall i :: 0 <= i < |sources| ==> Produces(sources[i])
    ensures Available(sources) == sources
    decreases |sources|
  {
    if |sources| > 0 {
      AllProducingKept(sources[1..]);
    }
  }

  /** Filtering a concatenation filters each part. */
  lemma {:induction false} AvailableAppend(a: seq<Source>, b: seq<Source>)
    ensures Available(a + b) == Available(a) + Available(b)
    decreases |a|
  {
    if |a| > 0 {
      assert (a + b)[1..] == a[1..] + b;
      AvailableAppend(a[1..], b);
    } else {
      assert a + b == b;
    }
  }

  /** When exactly the builder at `k` produces nothing, only that source is dropped. */
  lemma OnlyOneSkipped(sources: seq<Source>, k: nat)
    requires k < |sources| && !Produces(sources[k])
    requires forall i :: 0 <= i < |sources| && i != k ==> Produces(sources[i])
    ensures Available(sources) == sources[..k] + sources[k + 1..]
  {
    AvailableSplit(sources, k);
    AvailableDropsFirst(sources[k..]);
    assert sources[k..][1..] == sources[k + 1..];
    PrefixProduces(sources, k);
    AllProducingKept(sources[..k]);
    SuffixProduces(sources, k);
    AllProducingKept(sources[k + 1..]);
  }

  lemma AvailableSplit(sources: seq<Source>, k: nat)
    requires k < |sources|
    ensures Available(sources) == Available(sources[..k]) + Available(sources[k..])
  {
    assert sources == sources[..k] + sources[k..];
    AvailableAppend(sources[..k], sources[k..]);
  }

  lemma AvailableDropsFirst(sources: seq<Source>)
    requires |sources| > 0 && !Produces(sources[0])
    ensures Available(sources) == Available(sources[1..])
  {
  }

  /** Every source in `sources` produces a URL. */
  predicate AllProduce(sources: seq<Source>) {
    forall i :: 0 <= i < |sources| ==> Produces(sources[i])
  }

  lemma PrefixProduces(sources: seq<Source>, k: nat)
    requires k < |sources|
    requires forall i :: 0 <= i < |sources| && i != k ==> Produces(sources[i])
    ensures AllProduce(sources[..k])
  {
    forall i | 0 <= i < k
      ensures Produces(sources[..k][i])
    {
      assert sources[..k][i] == sources[i];
    }
  }

  lemma SuffixProduces(sources: seq<Source>, k: nat)
    requires k < |sources|
    requires forall i :: 0 <= i < |sources| && i != k ==> Produces(sources[i])
    ensures AllProduce(sources[k + 1..])
  {
    var after := sources[k + 1..];
    forall i | 0 <= i < |after|
      ensures Produces(after[i])
    {
      assert after[i] == sources[k + 1 + i];
    }
  }

  /** When no builder produces a URL there is nothing to offer. */
  lemma {:induction false} NoneProducingEmpty(sources: seq<Source>)
    requires forall i :: 0 <= i < |sources| ==> !Produces(sources[i])
    ensures Available(sources) == []
    decreases |sources|
  {
    if |sources| > 0 {
      NoneProducingEmpty(sources[1..]);
    }
  }
}

=== FILE: hero.dfy ===
/** The hero banner: renders nothing without an item; its play and info
    buttons open the detail page and its third button toggles the watchlist. */
module Hero {
  import opened Wrappers
  import opened Text
  import opened Media
  import MovieCard

  /** `movie.title ? 'movie' : 'tv'`; `media_type` is not consulted. */
  function HeroMediaType(m: Movie): (r: string)
    ensures r == "movie" <==> Truthy(m.title)
    ensures r == "tv" <==> !Truthy(m.title)
  {
    if Truthy(m.title) then "movie" else "tv"
  }

  datatype Button = Play | Info | WatchlistToggle

  /** The effect of pressing a button; no banner, no effect. */
  function Press(movie: Option<Movie>, button: Button, inWatchlist: bool): (r: Option<Effect>)
    ensures r.None? <==> movie.None?
    ensures movie.Some? && button != WatchlistToggle ==>
              r == Some(Navigate(DetailPath(HeroMediaType(movie.value), movie.value.id)))
    ensures movie.Some? && button == WatchlistToggle && inWatchlist ==> r == Some(Store(RemoveById(movie.value.id)))
    ensures movie.Some? && button == WatchlistToggle && !inWatchlist ==> r == Some(Store(Add(movie.value)))
  {
    match movie
    case None => None
    case Some(m) =>
      match button
      case WatchlistToggle => Some(Store(if inWatchlist then RemoveById(m.id) else Add(m)))
      case _ => Some(Navigate(DetailPath(HeroMediaType(m), m.id)))
  }

  /** Play and info open the same page, one the detail parser reads back. */
  lemma PlayAndInfoAgree(m: Movie, inWatchlist: bool)
    ensures Press(Some(m), Play, inWatchlist) == Press(Some(m), Info, inWatchlist)
    ensures ParseDetailPath(Press(Some(m), Play, inWatchlist).value.path) == Some(Route(HeroMediaType(m), m.id))
  {
    DetailPathRoundTrip(HeroMediaType(m), m.id);
  }

  /** The banner's destination does not depend on `media_type`. */
  lemma IgnoresMediaTypeField(m: Movie, mediaType: Option<string>, button: Button)
    requires button != WatchlistToggle
    ensures Press(Some(m.(mediaType := mediaType)), button, false) == Press(Some(m), button, false)
  {
  }

  /** Without `media_type` the banner and a card open the same page; with one
      that disagrees with `title`, they do not. */
  lemma AgreesWithCardWithoutMediaType(m: Movie)
    ensures !Truthy(m.mediaType) ==> Press(Some(m), Info, false) == Some(Navigate(MovieCard.ClickPath(m)))
    ensures Truthy(m.mediaType) && m.mediaType.value != HeroMediaType(m) && '/' !in m.mediaType.value ==>
              Press(Some(m), Info, false) != Some(Navigate(MovieCard.ClickPath(m)))
  {
    if Truthy(m.mediaType) && '/' !in m.mediaType.value
       && DetailPath(HeroMediaType(m), m.id) == DetailPath(m.mediaType.value, m.id) {
      DetailPathInjective(HeroMediaType(m), m.id, m.mediaType.value, m.id);
    }
  }

  /** With the store's answer accurate, the banner's toggle flips membership
      and adds the item exactly as given. */
  lemma ToggleFlipsMembership(m: Movie, ids: set<nat>)
    ensures var call := Press(Some(m), WatchlistToggle, m.id in ids).value.call;
            var after := ApplyMembership(ids, call);
            (m.id in after <==> m.id !in ids) && after - {m.id} == ids - {m.id}
            && (call.Add? ==> call.item == m)
  {
  }
}

=== FILE: media.dfy ===
/** What the card and the hero banner share: the media item as the catalog
    returns it, the calls they make on the watchlist store, and the
    detail-page route. The store itself is not modelled; `ApplyMembership`
    states only that adding makes an id present and removing makes it absent. */
module Media {
  import opened Wrappers
  import opened Text

  /** A catalog item. `mediaType` is the `media_type` property; properties
      neither component reads are kept, untouched, in `otherFields`. */
  datatype Movie = Movie(
    id: nat,
    mediaType: Option<string>,
    title: Option<string>,
    name: Option<string>,
    voteAverage: Option<real>,
    otherFields: map<string, string>)

  /** The one store operation a watchlist toggle performs. */
  datatype StoreCall = RemoveById(id: nat) | Add(item: Movie)

  /** What a click handler does: open a page, or call the watchlist store. */
  datatype Effect = Navigate(path: string) | Store(call: StoreCall)

  /** Membership after the call, for a store keyed by id. */
  function ApplyMembership(ids: set<nat>, call: StoreCall): set<nat> {
    match call
    case RemoveById(id) => ids - {id}
    case Add(item) => ids + {item.id}
  }

  /** `/detail/${mediaType}/${id}`. */
  function DetailPath(mediaType: string, id: nat): string {
    "/detail/" + mediaType + "/" + Decimal(id)
  }

  datatype Route = Route(mediaType: string, id: nat)

  /** Reads a detail-page path back: the media type up to the next '/', then
      the id in the plain decimal form `Decimal` writes. */
  function ParseDetailPath(path: string): Option<Route> {
    if !StartsWith(path, "/detail/") then None
    else
      var rest := path[8..];
      match IndexOf(rest, '/')
      case None => None
      case Some(k) =>
        match ParseDecimal(rest[k + 1..])
        case None => None
        case Some(id) => Some(Route(rest[..k], id))
  }

  /** The route a detail path names is recovered from it when the media type
      has no '/'. */
  lemma DetailPathRoundTrip(mediaType: string, id: nat)
    requires '/' !in mediaType
    ensures ParseDetailPath(DetailPath(mediaType, id)) == Some(Route(mediaType, id))
  {
    var digits := Decimal(id);
    var rest := mediaType + "/" + digits;
    assert DetailPath(mediaType, id) == "/detail/" + rest;
    StartsWithAppend("/detail/", rest);
    assert ("/detail/" + rest)[8..] == rest;
    IndexOfAfter(mediaType, '/', digits);
    assert rest[..|mediaType|] == mediaType;
    assert rest[|mediaType| + 1..] == digits;
    DecimalRoundTrip(id);
  }

  /** Whatever path reads back as a route is that route's detail path, with
      a media type free of '/'. */
  lemma ParsedPathIsDetailPath(path: string)
    ensures ParseDetailPath(path).Some? ==>
              '/' !in ParseDetailPath(path).value.mediaType &&
              path == DetailPath(ParseDetailPath(path).value.mediaType, ParseDetailPath(path).value.id)
  {
    if ParseDetailPath(path).Some? {
      var rest := path[8..];
      var k := IndexOf(rest, '/').value;
      var digits := rest[k + 1..];
      DecimalCanonical(digits);
      assert rest == rest[..k] + "/" + digits;
      assert path == "/detail/" + rest;
    }
  }

  /** Two items reach the same detail page only if they have the same route. */
  lemma DetailPathInjective(mediaType1: string, id1: nat, mediaType2: string, id2: nat)
    requires '/' !in mediaType1 && '/' !in mediaType2
    requires DetailPath(mediaType1, id1) == DetailPath(mediaType2, id2)
    ensures mediaType1 == mediaType2 && id1 == id2
  {
    DetailPathRoundTrip(mediaType1, id1);
    DetailPathRoundTrip(mediaType2, id2);
  }
}

=== FILE: movie_card.dfy ===
/** A poster card: derives the item's media type, navigates to its detail
    page and toggles it in the watchlist. `inWatchlist` is what
    `isInWatchlist(movie.id)` returned at render time. */
module MovieCard {
  import opened Wrappers
  import opened Text
  import opened Media

  /** `movie.media_type || (movie.title ? 'movie' : 'tv')`. */
  function MediaTypeOf(m: Movie): (r: string)
    ensures Truthy(m.mediaType) ==> r == m.mediaType.value
    ensures !Truthy(m.mediaType) ==> (r == "movie" <==> Truthy(m.title)) && (r == "tv" <==> !Truthy(m.title))
    ensures r != ""
  {
    if Truthy(m.mediaType) then m.mediaType.value
    else if Truthy(m.title) then "movie"
    else "tv"
  }

  /** `handleClick`: the detail page of the item's derived media type and id,
      which reads back as exactly that type and id; by
      `ParsedPathIsDetailPath` no other path does. */
  function ClickPath(m: Movie): (path: string)
    ensures '/' !in MediaTypeOf(m) ==> ParseDetailPath(path) == Some(Route(MediaTypeOf(m), m.id))
  {
    if '/' !in MediaTypeOf(m) then
      DetailPathRoundTrip(MediaTypeOf(m), m.id);
      DetailPath(MediaTypeOf(m), m.id)
    else
      DetailPath(MediaTypeOf(m), m.id)
  }

  /** `handleWatchlistToggle`: remove by id when listed, otherwise add the
      item with `media_type` set to the derived type and nothing else changed. */
  function Toggle(m: Movie, inWatchlist: bool): (c: StoreCall)
    ensures c.RemoveById? <==> inWatchlist
    ensures c.RemoveById? ==> c.id == m.id
    ensures c.Add? ==> c.item.mediaType == Some(MediaTypeOf(m))
    ensures c.Add? ==> c.item.id == m.id && c.item.title == m.title && c.item.name == m.name
                       && c.item.voteAverage == m.voteAverage && c.item.otherFields == m.otherFields
  {
    if inWatchlist then RemoveById(m.id) else Add(m.(mediaType := Some(MediaTypeOf(m))))
  }

  /** With the store's answer accurate, a toggle flips the item's membership
      and leaves every other id as it was. */
  lemma ToggleFlipsMembership(m: Movie, ids: set<nat>)
    ensures var after := ApplyMembership(ids, Toggle(m, m.id in ids));
            (m.id in after <==> m.id !in ids) && after - {m.id} == ids - {m.id}
  {
  }

  /** Adding an item whose `media_type` is already set stores it unchanged. */
  lemma ToggleKeepsExplicitType(m: Movie)
    requires Truthy(m.mediaType)
    ensures Toggle(m, false) == Add(m)
  {
  }

  /** `movie.vote_average > 0`; a missing rating compares false. */
  predicate RatingShown(m: Movie) {
    m.voteAverage.Some? && m.voteAverage.value > 0.0
  }

  /** Where a click lands on the card. */
  datatype Target = CardBody | PlayButton | WatchlistButton

  /** The handlers a click runs, in order. The play button's click bubbles
      to the card, so both navigate; the watchlist button stops propagation. */
  function Click(m: Movie, target: Target, inWatchlist: bool): (effects: seq<Effect>)
    ensures target == WatchlistButton ==> effects == [Store(Toggle(m, inWatchlist))]
    ensures target != WatchlistButton ==> |effects| > 0 && forall i :: 0 <= i < |effects| ==> effects[i] == Navigate(ClickPath(m))
  {
    match target
    case CardBody => [Navigate(ClickPath(m))]
    case PlayButton => [Navigate(ClickPath(m)), Navigate(ClickPath(m))]
    case WatchlistButton => [Store(Toggle(m, inWatchlist))]
  }

  /** What the card draws from the item: the rating in the overlay and as a
      badge, and the watchlist button's label. */
  datatype CardView = CardView(ratingText: bool, ratingBadge: bool, watchlistLabel: string)

  function Render(m: Movie, inWatchlist: bool): (v: CardView)
    ensures v.ratingText == v.ratingBadge
    ensures v.ratingBadge <==> m.voteAverage.Some? && m.voteAverage.value > 0.0
    ensures v.watchlistLabel == (if inWatchlist then "Удалить" else "Добавить")
  {
    CardView(RatingShown(m), RatingShown(m), if inWatchlist then "Удалить" else "Добавить")
  }
}

=== FILE: multi_source_player.dfy ===
/** The universal player: six embed providers, each addressed by the IMDb id
    when there is one and otherwise by the TMDB id. Ids are modelled by the
    text they interpolate into a URL; `mediaType` by the string it holds. */
module MultiSourcePlayer {
  import opened Wrappers
  import opened Text
  import opened EmbedSources

  function VidSrc(imdbId: Option<string>, tmdbId: Option<string>, mediaType: string): Outcome {
    if Truthy(imdbId) then Url("https://vidsrc.xyz/embed/" + mediaType + "/" + imdbId.value)
    else if Truthy(tmdbId) then Url("https://vidsrc.xyz/embed/" + mediaType + "?tmdb=" + tmdbId.value)
    else NoUrl
  }

  function VidSrcTo(imdbId: Option<string>, tmdbId: Option<string>, mediaType: string): Outcome {
    if Truthy(imdbId) then Url("https://vidsrc.to/embed/" + mediaType + "/" + imdbId.value)
    else if Truthy(tmdbId) then Url("https://vidsrc.to/embed/" + mediaType + "/" + tmdbId.value)
    else NoUrl
  }

  function TwoEmbed(imdbId: Option<string>, tmdbId: Option<string>): Outcome {
    if Truthy(imdbId) then Url("https://www.2embed.cc/embed/" + imdbId.value)
    else if Truthy(tmdbId) then Url("https://www.2embed.cc/embedtv/" + tmdbId.value)
    else NoUrl
  }

  function SuperEmbed(imdbId: Option<string>, tmdbId: Option<string>, mediaType: string): Outcome {
    if Truthy(imdbId) then
      var kind := if mediaType == "tv" then "tv" else "movie";
      Url("https://multiembed.mov/?video_id=" + imdbId.value + "&tmdb=1&" + kind + "=1")
    else if Truthy(tmdbId) then Url("https://multiembed.mov/directstream.php?video_id=" + tmdbId.value + "&tmdb=1")
    else NoUrl
  }

  function Embedder(imdbId: Option<string>): Outcome {
    if Truthy(imdbId) then Url("https://embedder.net/e/" + imdbId.value) else NoUrl
  }

  function NontonGo(imdbId: Option<string>, tmdbId: Option<string>, mediaType: string): Outcome {
    if Truthy(imdbId) then Url("https://www.NontonGo.win/embed/imdb/" + imdbId.value)
    else if Truthy(tmdbId) then Url("https://www.NontonGo.win/embed/tmdb/" + mediaType + "/" + tmdbId.value)
    else NoUrl
  }

  const Names: seq<string> := ["VidSrc", "VidSrc.to", "2Embed", "SuperEmbed", "Embedder", "NontonGo"]

  /** The `sources` list in declaration order; no builder throws. */
  function Sources(imdbId: Option<string>, tmdbId: Option<string>, mediaType: string): (r: seq<Source>)
    ensures |r| == |Names|
    ensures forall i :: 0 <= i < |r| ==> r[i].name == Names[i] && !r[i].outcome.Threw?
  {
    [ Source("VidSrc", VidSrc(imdbId, tmdbId, mediaType)),
      Source("VidSrc.to", VidSrcTo(imdbId, tmdbId, mediaType)),
      Source("2Embed", TwoEmbed(imdbId, tmdbId)),
      Source("SuperEmbed", SuperEmbed(imdbId, tmdbId, mediaType)),
      Source("Embedder", Embedder(imdbId)),
      Source("NontonGo", NontonGo(imdbId, tmdbId, mediaType)) ]
  }

  function AvailableSources(imdbId: Option<string>, tmdbId: Option<string>, mediaType: string): seq<Source> {
    Available(Sources(imdbId, tmdbId, mediaType))
  }

  /** The produced URL embeds `id`. */
  predicate UsesId(o: Outcome, id: string) {
    o.Url? && Contains(o.url, id)
  }

  /** The id a builder is meant to use: the IMDb id when present, else the TMDB id. */
  function PreferredId(imdbId: Option<string>, tmdbId: Option<string>): string {
    if Truthy(imdbId) then imdbId.value else tmdbId.GetOr("")
  }

  /** Any URL the builder produced carries the preferred id. */
  predicate CarriesPreferredId(o: Outcome, imdbId: Option<string>, tmdbId: Option<string>) {
    o.Url? ==> UsesId(o, PreferredId(imdbId, tmdbId))
  }

  lemma Embeds(o: Outcome, prefix: string, id: string, suffix: string)
    requires o == Url(prefix + id + suffix)
    ensures UsesId(o, id)
  {
    ContainsInfix(prefix, id, suffix);
  }

  lemma VidSrcCarriesId(imdbId: Option<string>, tmdbId: Option<string>, mediaType: string)
    ensures CarriesPreferredId(VidSrc(imdbId, tmdbId, mediaType), imdbId, tmdbId)
  {
    var o := VidSrc(imdbId, tmdbId, mediaType);
    if Truthy(imdbId) {
      Embeds(o, "https://vidsrc.xyz/embed/" + mediaType + "/", imdbId.value, "");
    } else if Truthy(tmdbId) {
      Embeds(o, "https://vidsrc.xyz/embed/" + mediaType + "?tmdb=", tmdbId.value, "");
    }
  }

  lemma VidSrcToCarriesId(imdbId: Option<string>, tmdbId: Option<string>, mediaType: string)
    ensures CarriesPreferredId(VidSrcTo(imdbId, tmdbId, mediaType), imdbId, tmdbId)
  {
    var o := VidSrcTo(imdbId, tmdbId, mediaType);
    if Truthy(imdbId) {
      Embeds(o, "https://vidsrc.to/embed/" + mediaType + "/", imdbId.value, "");
    } else if Truthy(tmdbId) {
      Embeds(o, "https://vidsrc.to/embed/" + mediaType + "/", tmdbId.value, "");
    }
  }

  lemma TwoEmbedCarriesId(imdbId: Option<string>, tmdbId: Option<string>)
    ensures CarriesPreferredId(TwoEmbed(imdbId, tmdbId), imdbId, tmdbId)
  {
    var o := TwoEmbed(imdbId, tmdbId);
    if Truthy(imdbId) {
      Embeds(o, "https://www.2embed.cc/embed/", imdbId.value, "");
    } else if Truthy(tmdbId) {
      Embeds(o, "https://www.2embed.cc/embedtv/", tmdbId.value, "");
    }
  }

  lemma SuperEmbedCarriesId(imdbId: Option<string>, tmdbId: Option<string>, mediaType: string)
    ensures CarriesPreferredId(SuperEmbed(imdbId, tmdbId, mediaType), imdbId, tmdbId)
  {
    var o := SuperEmbed(imdbId, tmdbId, mediaType);
    if Truthy(imdbId) {
      var kind := if mediaType == "tv" then "tv" else "movie";
      Embeds(o, "https://multiembed.mov/?video_id=", imdbId.value, "&tmdb=1&" + kind + "=1");
    } else if Truthy(tmdbId) {
      Embeds(o, "https://multiembed.mov/directstream.php?video_id=", tmdbId.value, "&tmdb=1");
    }
  }

  lemma EmbedderCarriesId(imdbId: Option<string>, tmdbId: Option<string>)
    ensures CarriesPreferredId(Embedder(imdbId), imdbId, tmdbId)
    ensures Embedder(imdbId).Url? ==> Truthy(imdbId) && UsesId(Embedder(imdbId), imdbId.value)
  {
    if Truthy(imdbId) {
      Embeds(Embedder(imdbId), "https://embedder.net/e/", imdbId.value, "");
    }
  }

  lemma NontonGoCarriesId(imdbId: Option<string>, tmdbId: Option<string>, mediaType: string)
    ensures CarriesPreferredId(NontonGo(imdbId, tmdbId, mediaType), imdbId, tmdbId)
  {
    var o := NontonGo(imdbId, tmdbId, mediaType);
    if Truthy(imdbId) {
      Embeds(o, "https://www.NontonGo.win/embed/imdb/", imdbId.value, "");
    } else if Truthy(tmdbId) {
      Embeds(o, "https://www.NontonGo.win/embed/tmdb/" + mediaType + "/", tmdbId.value, "");
    }
  }

  /** Every URL a source produces carries the IMDb id when there is one and
      the TMDB id otherwise. */
  lemma EverySourceCarriesPreferredId(imdbId: Option<string>, tmdbId: Option<string>, mediaType: string)
    ensures forall i :: 0 <= i < |Names| ==> CarriesPreferredId(Sources(imdbId, tmdbId, mediaType)[i].outcome, imdbId, tmdbId)
  {
    var sources := Sources(imdbId, tmdbId, mediaType);
    forall i | 0 <= i < |Names|
      ensures CarriesPreferredId(sources[i].outcome, imdbId, tmdbId)
    {
      if i == 0 {
        VidSrcCarriesId(imdbId, tmdbId, mediaType);
      } else if i == 1 {
        VidSrcToCarriesId(imdbId, tmdbId, mediaType);
      } else if i == 2 {
        TwoEmbedCarriesId(imdbId, tmdbId);
      } else if i == 3 {
        SuperEmbedCarriesId(imdbId, tmdbId, mediaType);
      } else if i == 4 {
        EmbedderCarriesId(imdbId, tmdbId);
      } else {
        NontonGoCarriesId(imdbId, tmdbId, mediaType);
      }
    }
  }

  /** With an IMDb id the TMDB id has no influence on any URL. */
  lemma ImdbIgnoresTmdb(imdbId: Option<string>, tmdbId: Option<string>, otherTmdbId: Option<string>, mediaType: string)
    requires Truthy(imdbId)
    ensures Sources(imdbId, tmdbId, mediaType) == Sources(imdbId, otherTmdbId, mediaType)
  {
  }

  /** With an IMDb id all six sources are offered, in declaration order. */
  lemma ImdbAllOffered(imdbId: Option<string>, tmdbId: Option<string>, mediaType: string)
    requires Truthy(imdbId)
    ensures AvailableSources(imdbId, tmdbId, mediaType) == Sources(imdbId, tmdbId, mediaType)
  {
    AllProducingKept(Sources(imdbId, tmdbId, mediaType));
  }

  /** With an IMDb id every offered URL carries it. */
  lemma ImdbOfferedUrlsUseImdb(imdbId: Option<string>, tmdbId: Option<string>, mediaType: string)
    requires Truthy(imdbId)
    ensures forall i :: 0 <= i < |AvailableSources(imdbId, tmdbId, mediaType)| ==>
              UsesId(AvailableSources(imdbId, tmdbId, mediaType)[i].outcome, imdbId.value)
  {
    ImdbAllOffered(imdbId, tmdbId, mediaType);
    EverySourceCarriesPreferredId(imdbId, tmdbId, mediaType);
  }

  /** With only a TMDB id, every builder except Embedder produces a URL. */
  lemma TmdbOnlyProducing(imdbId: Option<string>, tmdbId: Option<string>, mediaType: string)
    requires !Truthy(imdbId) && Truthy(tmdbId)
    ensures !Produces(Sources(imdbId, tmdbId, mediaType)[4])
    ensures forall i :: 0 <= i < |Names| && i != 4 ==> Produces(Sources(imdbId, tmdbId, mediaType)[i])
  {
    assert VidSrc(imdbId, tmdbId, mediaType).Url? && VidSrcTo(imdbId, tmdbId, mediaType).Url?;
    assert TwoEmbed(imdbId, tmdbId).Url? && SuperEmbed(imdbId, tmdbId, mediaType).Url?;
    assert NontonGo(imdbId, tmdbId, mediaType).Url? && Embedder(imdbId).NoUrl?;
  }

  /** Any list named like `sources` in which only Embedder produces nothing
      offers five tabs, none of them Embedder. */
  lemma EmbedderSkipped(sources: seq<Source>)
    requires |sources| == |Names|
    requires forall i :: 0 <= i < |sources| ==> sources[i].name == Names[i]
    requires !Produces(sources[4])
    requires forall i :: 0 <= i < |sources| && i != 4 ==> Produces(sources[i])
    ensures |Available(sources)| == 5
    ensures forall i :: 0 <= i < |Available(sources)| ==> Available(sources)[i].name != "Embedder"
  {
    OnlyOneSkipped(sources, 4);
    assert |sources[..4] + sources[5..]| == 5;
    var offered := Available(sources);
    AvailableMembers(sources);
    forall i | 0 <= i < |offered|
      ensures offered[i].name != "Embedder"
    {
      assert offered[i] in offered;
      var j :| 0 <= j < |sources| && sources[j] == offered[i];
      assert j != 4;
    }
  }

  /** With only a TMDB id, Embedder is skipped and the other five sources are offered. */
  lemma TmdbOnlyFiveSources(imdbId: Option<string>, tmdbId: Option<string>, mediaType: string)
    requires !Truthy(imdbId) && Truthy(tmdbId)
    ensures |AvailableSources(imdbId, tmdbId, mediaType)| == 5
    ensures forall i :: 0 <= i < |AvailableSources(imdbId, tmdbId, mediaType)| ==>
              AvailableSources(imdbId, tmdbId, mediaType)[i].name != "Embedder"
  {
    TmdbOnlyProducing(imdbId, tmdbId, mediaType);
    EmbedderSkipped(Sources(imdbId, tmdbId, mediaType));
  }

  /** With only a TMDB id every offered URL carries it. */
  lemma TmdbOfferedUrlsUseTmdb(imdbId: Option<string>, tmdbId: Option<string>, mediaType: string)
    requires !Truthy(imdbId) && Truthy(tmdbId)
    ensures forall i :: 0 <= i < |AvailableSources(imdbId, tmdbId, mediaType)| ==>
              UsesId(AvailableSources(imdbId, tmdbId, mediaType)[i].outcome, tmdbId.value)
  {
    var sources := Sources(imdbId, tmdbId, mediaType);
    var offered := Available(sources);
    EverySourceCarriesPreferredId(imdbId, tmdbId, mediaType);
    AvailableMembers(sources);
    forall i | 0 <= i < |offered|
      ensures UsesId(offered[i].outcome, tmdbId.value)
    {
      assert offered[i] in offered;
      var j :| 0 <= j < |sources| && sources[j] == offered[i];
    }
  }

  /** With neither id no builder produces a URL. */
  lemma NoIdsNoSources(imdbId: Option<string>, tmdbId: Option<string>, mediaType: string)
    requires !Truthy(imdbId) && !Truthy(tmdbId)
    ensures AvailableSources(imdbId, tmdbId, mediaType) == []
  {
    NoneProducingEmpty(Sources(imdbId, tmdbId, mediaType));
  }

  /** Some source is offered exactly when at least one id is present. */
  lemma AvailableIffSomeId(imdbId: Option<string>, tmdbId: Option<string>, mediaType: string)
    ensures |AvailableSources(imdbId, tmdbId, mediaType)| > 0 <==> Truthy(imdbId) || Truthy(tmdbId)
  {
    if Truthy(imdbId) {
      ImdbAllOffered(imdbId, tmdbId, mediaType);
    } else if Truthy(tmdbId) {
      TmdbOnlyFiveSources(imdbId, tmdbId, mediaType);
    } else {
      NoIdsNoSources(imdbId, tmdbId, mediaType);
    }
  }

  /** SuperEmbed with an IMDb id asks for a series exactly when `mediaType` is "tv". */
  lemma SuperEmbedKind(imdbId: Option<string>, tmdbId: Option<string>, mediaType: string)
    requires Truthy(imdbId)
    ensures SuperEmbed(imdbId, tmdbId, mediaType).Url?
    ensures EndsWith(SuperEmbed(imdbId, tmdbId, mediaType).url, "&tv=1") <==> mediaType == "tv"
    ensures EndsWith(SuperEmbed(imdbId, tmdbId, mediaType).url, "&movie=1") <==> mediaType != "tv"
  {
    var head := "https://multiembed.mov/?video_id=" + imdbId.value + "&tmdb=1";
    var tail := if mediaType == "tv" then "&tv=1" else "&movie=1";
    assert SuperEmbed(imdbId, tmdbId, mediaType).url == head + tail;
    EndsWithAppendIff(head, tail, "&tv=1");
    assert !EndsWith("&movie=1", "&tv=1");
    if EndsWith(head + tail, "&movie=1") {
      EndsWithBoth(head + tail, tail, "&movie=1");
      assert tail == "&movie=1";
    }
    if mediaType != "tv" {
      EndsWithAppend(head, tail);
    }
  }

  /** The 2Embed fallback on a TMDB id always takes the series path, whatever `mediaType` is. */
  lemma TwoEmbedTmdbAlwaysSeries(imdbId: Option<string>, tmdbId: Option<string>)
    requires !Truthy(imdbId) && Truthy(tmdbId)
    ensures TwoEmbed(imdbId, tmdbId).Url?
    ensures StartsWith(TwoEmbed(imdbId, tmdbId).url, "https://www.2embed.cc/embedtv/")
  {
    StartsWithAppend("https://www.2embed.cc/embedtv/", tmdbId.value);
  }

  /** Selected tab, loading overlay and error overlay. */
  datatype PlayerState = PlayerState(selected: nat, loading: bool, error: bool)

  const Initial := PlayerState(0, true, false)

  datatype Event = TabClicked(index: nat) | FrameLoaded | FrameFailed

  /** A click can only land on a tab that is drawn. */
  predicate Clickable(ev: Event, tabs: nat) {
    ev.TabClicked? ==> ev.index < tabs
  }

  /** A tab click: that tab, loading again, no error. */
  function SelectTab(st: PlayerState, index: nat): (r: PlayerState)
    ensures r.selected == index && r.loading && !r.error
  {
    PlayerState(index, true, false)
  }

  /** The iframe's `onLoad`: loading ends, nothing else changes. */
  function OnLoad(st: PlayerState): (r: PlayerState)
    ensures !r.loading && r.selected == st.selected && r.error == st.error
  {
    st.(loading := false)
  }

  /** The iframe's `onError`: loading ends and the error overlay shows. */
  function OnError(st: PlayerState): (r: PlayerState)
    ensures !r.loading && r.error && r.selected == st.selected
  {
    st.(loading := false, error := true)
  }

  function Step(st: PlayerState, ev: Event): PlayerState {
    match ev
    case TabClicked(i) => SelectTab(st, i)
    case FrameLoaded => OnLoad(st)
    case FrameFailed => OnError(st)
  }

  function Run(st: PlayerState, events: seq<Event>): PlayerState
    decreases |events|
  {
    if |events| == 0 then st else Run(Step(st, events[0]), events[1..])
  }

  /** Clicks on drawn tabs keep the selection on a drawn tab. */
  lemma {:induction false} SelectionStaysInRange(st: PlayerState, events: seq<Event>, tabs: nat)
    requires st.selected < tabs
    requires forall i :: 0 <= i < |events| ==> Clickable(events[i], tabs)
    ensures Run(st, events).selected < tabs
    decreases |events|
  {
    if |events| > 0 {
      SelectionStaysInRange(Step(st, events[0]), events[1..], tabs);
    }
  }

  /** The player opens on the first tab, so after any run of clicks on offered
      tabs and iframe events the selection still meets `Render`'s requirement. */
  lemma InitialSelectionRenders(imdbId: Option<string>, tmdbId: Option<string>, mediaType: string, events: seq<Event>)
    requires forall i :: 0 <= i < |events| ==> Clickable(events[i], |AvailableSources(imdbId, tmdbId, mediaType)|)
    ensures var st := Run(Initial, events);
            |AvailableSources(imdbId, tmdbId, mediaType)| == 0 || st.selected < |AvailableSources(imdbId, tmdbId, mediaType)|
  {
    OpensInRange(events, |AvailableSources(imdbId, tmdbId, mediaType)|);
  }

  /** From the first tab, clicks on drawn tabs and iframe events keep the
      selection on a drawn tab whenever there is one. */
  lemma OpensInRange(events: seq<Event>, tabs: nat)
    requires forall i :: 0 <= i < |events| ==> Clickable(events[i], tabs)
    ensures tabs == 0 || Run(Initial, events).selected < tabs
  {
    if tabs > 0 {
      SelectionStaysInRange(Initial, events, tabs);
    }
  }

  datatype View =
    | Unavailable
    | Playing(current: Source, embedUrl: string, tabs: seq<string>, spinner: bool, errorPanel: bool)

  function TabNames(sources: seq<Source>): (r: seq<string>)
    ensures |r| == |sources|
    ensures forall i :: 0 <= i < |r| ==> r[i] == sources[i].name
  {
    if |sources| == 0 then [] else [sources[0].name] + TabNames(sources[1..])
  }

  /** The "players unavailable" panel when nothing is offered, else the
      selected source's iframe with one tab per offered source. */
  function Render(imdbId: Option<string>, tmdbId: Option<string>, mediaType: string, st: PlayerState): (v: View)
    requires |AvailableSources(imdbId, tmdbId, mediaType)| == 0 || st.selected < |AvailableSources(imdbId, tmdbId, mediaType)|
    ensures v.Unavailable? <==> !Truthy(imdbId) && !Truthy(tmdbId)
    ensures v.Playing? ==> v.current == AvailableSources(imdbId, tmdbId, mediaType)[st.selected]
    ensures v.Playing? ==> v.current.outcome == Url(v.embedUrl)
    ensures v.Playing? ==> |v.tabs| == |AvailableSources(imdbId, tmdbId, mediaType)|
                           && forall i :: 0 <= i < |v.tabs| ==> v.tabs[i] == AvailableSources(imdbId, tmdbId, mediaType)[i].name
    ensures v.Playing? ==> v.spinner == st.loading && v.errorPanel == st.error
  {
    AvailableIffSomeId(imdbId, tmdbId, mediaType);
    var available := AvailableSources(imdbId, tmdbId, mediaType);
    if |available| == 0 then Unavailable
    else
      var current := available[st.selected];
      Playing(current, current.outcome.url, TabNames(available), st.loading, st.error)
  }
}

=== FILE: russian_voice_player.dfy ===
/** The Russian-voice-over player: six providers, all addressed by the TMDB
    id alone and all asked for Russian audio. The component also receives an
    IMDb id; no builder reads it. */
module RussianVoicePlayer {
  import opened Wrappers
  import opened Text
  import opened EmbedSources
  import opened Tabs

  function VidSrcRu(tmdbId: Option<string>, mediaType: string): Outcome {
    if Truthy(tmdbId) then Url("https://vidsrc.me/embed/" + mediaType + "?tmdb=" + tmdbId.value + "&ds_lang=ru") else NoUrl
  }

  function VidSrcNetRu(tmdbId: Option<string>, mediaType: string): Outcome {
    if Truthy(tmdbId) then Url("https://vidsrc.net/embed/" + mediaType + "/" + tmdbId.value + "?lang=ru") else NoUrl
  }

  function EmbedSuRu(tmdbId: Option<string>, mediaType: string): Outcome {
    if Truthy(tmdbId) then Url("https://embed.su/embed/" + mediaType + "/" + tmdbId.value + "?lang=ru") else NoUrl
  }

  function TwoEmbedRu(tmdbId: Option<string>, mediaType: string): Outcome {
    if Truthy(tmdbId) then
      var kind := if mediaType == "movie" then "embed" else "embedtv";
      Url("https://www.2embed.cc/" + kind + "/" + tmdbId.value + "?lang=ru")
    else NoUrl
  }

  function VidSrcXyzRu(tmdbId: Option<string>, mediaType: string): Outcome {
    if Truthy(tmdbId) then Url("https://vidsrc.xyz/embed/" + mediaType + "?tmdb=" + tmdbId.value + "&lang=ru") else NoUrl
  }

  function MultiEmbedRu(tmdbId: Option<string>, mediaType: string): Outcome {
    if Truthy(tmdbId) then
      var kind := if mediaType == "movie" then "movie" else "tv";
      Url("https://multiembed.mov/?video_id=" + tmdbId.value + "&tmdb=1&" + kind + "=1&lang=ru")
    else NoUrl
  }

  const Names: seq<string> :=
    ["VidSrc (RU)", "VidSrc.net (RU)", "Embed.su (RU)", "2Embed (RU)", "VidSrc.xyz (RU)", "MultiEmbed (RU)"]

  /** The `sources` list in declaration order; no builder throws. */
  function Sources(tmdbId: Option<string>, imdbId: Option<string>, mediaType: string): (r: seq<Source>)
    ensures |r| == |Names|
    ensures forall i :: 0 <= i < |r| ==> r[i].name == Names[i] && !r[i].outcome.Threw?
  {
    [ Source("VidSrc (RU)", VidSrcRu(tmdbId, mediaType)),
      Source("VidSrc.net (RU)", VidSrcNetRu(tmdbId, mediaType)),
      Source("Embed.su (RU)", EmbedSuRu(tmdbId, mediaType)),
      Source("2Embed (RU)", TwoEmbedRu(tmdbId, mediaType)),
      Source("VidSrc.xyz (RU)", VidSrcXyzRu(tmdbId, mediaType)),
      Source("MultiEmbed (RU)", MultiEmbedRu(tmdbId, mediaType)) ]
  }

  /** The exception-tolerant filter: a builder that throws counts as unavailable. */
  function AvailableSources(tmdbId: Option<string>, imdbId: Option<string>, mediaType: string): seq<Source> {
    Available(Sources(tmdbId, imdbId, mediaType))
  }

  /** A builder that throws is not offered, whatever its position. */
  lemma ThrowingBuilderSkipped(sources: seq<Source>, i: nat)
    requires i < |sources| && sources[i].outcome.Threw?
    ensures sources[i] !in Available(sources)
    ensures |Available(sources)| < |sources|
  {
    AvailableMembers(sources);
    CountBelowLength(sources, i);
  }

  /** The URL ends in a query parameter asking for Russian audio. */
  predicate AsksForRussian(url: string) {
    EndsWith(url, "&ds_lang=ru") || EndsWith(url, "?lang=ru") || EndsWith(url, "&lang=ru")
  }

  /** A produced URL carries the TMDB id and asks for Russian audio. */
  predicate RussianTmdbUrl(o: Outcome, tmdbId: string) {
    o.Url? && Contains(o.url, tmdbId) && AsksForRussian(o.url)
  }

  lemma Builds(o: Outcome, prefix: string, id: string, lang: string)
    requires o == Url(prefix + id + lang)
    requires lang in {"&ds_lang=ru", "?lang=ru", "&lang=ru"}
    ensures RussianTmdbUrl(o, id) && EndsWith(o.url, lang)
  {
    ContainsInfix(prefix, id, lang);
    EndsWithAppend(prefix + id, lang);
  }

  lemma VidSrcRuBuilds(tmdbId: Option<string>, mediaType: string)
    requires Truthy(tmdbId)
    ensures RussianTmdbUrl(VidSrcRu(tmdbId, mediaType), tmdbId.value)
    ensures EndsWith(VidSrcRu(tmdbId, mediaType).url, "&ds_lang=ru")
  {
    Builds(VidSrcRu(tmdbId, mediaType), "https://vidsrc.me/embed/" + mediaType + "?tmdb=", tmdbId.value, "&ds_lang=ru");
  }

  lemma VidSrcNetRuBuilds(tmdbId: Option<string>, mediaType: string)
    requires Truthy(tmdbId)
    ensures RussianTmdbUrl(VidSrcNetRu(tmdbId, mediaType), tmdbId.value)
    ensures EndsWith(VidSrcNetRu(tmdbId, mediaType).url, "?lang=ru")
  {
    Builds(VidSrcNetRu(tmdbId, mediaType), "https://vidsrc.net/embed/" + mediaType + "/", tmdbId.value, "?lang=ru");
  }

  lemma EmbedSuRuBuilds(tmdbId: Option<string>, mediaType: string)
    requires Truthy(tmdbId)
    ensures RussianTmdbUrl(EmbedSuRu(tmdbId, mediaType), tmdbId.value)
    ensures EndsWith(EmbedSuRu(tmdbId, mediaType).url, "?lang=ru")
  {
    Builds(EmbedSuRu(tmdbId, mediaType), "https://embed.su/embed/" + mediaType + "/", tmdbId.value, "?lang=ru");
  }

  lemma TwoEmbedRuBuilds(tmdbId: Option<string>, mediaType: string)
    requires Truthy(tmdbId)
    ensures RussianTmdbUrl(TwoEmbedRu(tmdbId, mediaType), tmdbId.value)
    ensures EndsWith(TwoEmbedRu(tmdbId, mediaType).url, "?lang=ru")
  {
    var kind := if mediaType == "movie" then "embed" else "embedtv";
    Builds(TwoEmbedRu(tmdbId, mediaType), "https://www.2embed.cc/" + kind + "/", tmdbId.value, "?lang=ru");
  }

  lemma VidSrcXyzRuBuilds(tmdbId: Option<string>, mediaType: string)
    requires Truthy(tmdbId)
    ensures RussianTmdbUrl(VidSrcXyzRu(tmdbId, mediaType), tmdbId.value)
    ensures EndsWith(VidSrcXyzRu(tmdbId, mediaType).url, "&lang=ru")
  {
    Builds(VidSrcXyzRu(tmdbId, mediaType), "https://vidsrc.xyz/embed/" + mediaType + "?tmdb=", tmdbId.value, "&lang=ru");
  }

  lemma MultiEmbedRuBuilds(tmdbId: Option<string>, mediaType: string)
    requires Truthy(tmdbId)
    ensures RussianTmdbUrl(MultiEmbedRu(tmdbId, mediaType), tmdbId.value)
    ensures EndsWith(MultiEmbedRu(tmdbId, mediaType).url, "&lang=ru")
  {
    var prefix, id := "https://multiembed.mov/?video_id=", tmdbId.value;
    var kind := if mediaType == "movie" then "movie" else "tv";
    var query := "&tmdb=1&" + kind + "=1";
    var tail := query + "&lang=ru";
    assert MultiEmbedRu(tmdbId, mediaType).url == prefix + id + tail;
    ContainsInfix(prefix, id, tail);
    EndsWithAppend(query, "&lang=ru");
    EndsWithAppendIff(prefix + id, tail, "&lang=ru");
  }

  /** With a TMDB id every builder produces a Russian-audio URL carrying it. */
  lemma EverySourceRussianTmdb(tmdbId: Option<string>, imdbId: Option<string>, mediaType: string)
    requires Truthy(tmdbId)
    ensures forall i :: 0 <= i < |Names| ==> RussianTmdbUrl(Sources(tmdbId, imdbId, mediaType)[i].outcome, tmdbId.value)
  {
    VidSrcRuBuilds(tmdbId, mediaType);
    VidSrcNetRuBuilds(tmdbId, mediaType);
    EmbedSuRuBuilds(tmdbId, mediaType);
    TwoEmbedRuBuilds(tmdbId, mediaType);
    VidSrcXyzRuBuilds(tmdbId, mediaType);
    MultiEmbedRuBuilds(tmdbId, mediaType);
  }

  /** The builders never read the IMDb id. */
  lemma UrlsIgnoreImdb(tmdbId: Option<string>, imdbId: Option<string>, otherImdbId: Option<string>, mediaType: string)
    ensures Sources(tmdbId, imdbId, mediaType) == Sources(tmdbId, otherImdbId, mediaType)
  {
  }

  /** With a TMDB id all six sources are offered, in declaration order. */
  lemma TmdbAllOffered(tmdbId: Option<string>, imdbId: Option<string>, mediaType: string)
    requires Truthy(tmdbId)
    ensures AvailableSources(tmdbId, imdbId, mediaType) == Sources(tmdbId, imdbId, mediaType)
  {
    AllProducingKept(Sources(tmdbId, imdbId, mediaType));
  }

  /** Every offered URL carries the TMDB id and asks for Russian audio. */
  lemma OfferedUrlsRussian(tmdbId: Option<string>, imdbId: Option<string>, mediaType: string)
    ensures forall i :: 0 <= i < |AvailableSources(tmdbId, imdbId, mediaType)| ==>
              RussianTmdbUrl(AvailableSources(tmdbId, imdbId, mediaType)[i].outcome, tmdbId.GetOr(""))
  {
    if Truthy(tmdbId) {
      TmdbAllOffered(tmdbId, imdbId, mediaType);
      EverySourceRussianTmdb(tmdbId, imdbId, mediaType);
    } else {
      NoneProducingEmpty(Sources(tmdbId, imdbId, mediaType));
    }
  }

  /** Something is offered exactly when there is a TMDB id. */
  lemma AvailableIffTmdb(tmdbId: Option<string>, imdbId: Option<string>, mediaType: string)
    ensures |AvailableSources(tmdbId, imdbId, mediaType)| > 0 <==> Truthy(tmdbId)
  {
    if Truthy(tmdbId) {
      TmdbAllOffered(tmdbId, imdbId, mediaType);
    } else {
      NoneProducingEmpty(Sources(tmdbId, imdbId, mediaType));
    }
  }

  /** 2Embed takes the film path exactly for "movie", the series path otherwise. */
  lemma TwoEmbedKind(tmdbId: Option<string>, mediaType: string)
    requires Truthy(tmdbId)
    ensures TwoEmbedRu(tmdbId, mediaType).Url?
    ensures StartsWith(TwoEmbedRu(tmdbId, mediaType).url, "https://www.2embed.cc/embed/") <==> mediaType == "movie"
    ensures StartsWith(TwoEmbedRu(tmdbId, mediaType).url, "https://www.2embed.cc/embedtv/") <==> mediaType != "movie"
  {
    var url := TwoEmbedRu(tmdbId, mediaType).url;
    var rest := tmdbId.value + "?lang=ru";
    if mediaType == "movie" {
      assert url == "https://www.2embed.cc/embed/" + rest;
      StartsWithAppend("https://www.2embed.cc/embed/", rest);
      assert url[27] == '/';
    } else {
      assert url == "https://www.2embed.cc/embedtv/" + rest;
      StartsWithAppend("https://www.2embed.cc/embedtv/", rest);
      assert url[27] == 't';
    }
  }

  /** MultiEmbed asks for a film exactly for "movie", a series otherwise. */
  lemma MultiEmbedKind(tmdbId: Option<string>, mediaType: string)
    requires Truthy(tmdbId)
    ensures MultiEmbedRu(tmdbId, mediaType).Url?
    ensures EndsWith(MultiEmbedRu(tmdbId, mediaType).url, "&movie=1&lang=ru") <==> mediaType == "movie"
    ensures EndsWith(MultiEmbedRu(tmdbId, mediaType).url, "&tv=1&lang=ru") <==> mediaType != "movie"
  {
    var head := "https://multiembed.mov/?video_id=" + tmdbId.value + "&tmdb=1";
    var tail := if mediaType == "movie" then "&movie=1&lang=ru" else "&tv=1&lang=ru";
    assert MultiEmbedRu(tmdbId, mediaType).url == head + tail;
    EndsWithAppendIff(head, tail, "&tv=1&lang=ru");
    assert !EndsWith("&movie=1&lang=ru", "&tv=1&lang=ru");
    if EndsWith(head + tail, "&movie=1&lang=ru") {
      EndsWithBoth(head + tail, tail, "&movie=1&lang=ru");
      assert tail == "&movie=1&lang=ru";
    }
    if mediaType == "movie" {
      EndsWithAppend(head, tail);
    }
  }

  /** The player opens on the first tab, so after any run of clicks on offered
      tabs and iframe loads the selection still meets `Render`'s requirement. */
  lemma InitialSelectionRenders(tmdbId: Option<string>, imdbId: Option<string>, mediaType: string, events: seq<Event>)
    requires forall i :: 0 <= i < |events| ==> Clickable(events[i], |AvailableSources(tmdbId, imdbId, mediaType)|)
    ensures var st := Run(Initial, events);
            |AvailableSources(tmdbId, imdbId, mediaType)| == 0 || st.selected < |AvailableSources(tmdbId, imdbId, mediaType)|
  {
    OpensInRange(events, |AvailableSources(tmdbId, imdbId, mediaType)|);
  }

  datatype View = NoPlayers | Playing(current: Source, embedUrl: string, spinner: bool)

  /** The "no players" panel without a TMDB id, else the selected source's iframe. */
  function Render(tmdbId: Option<string>, imdbId: Option<string>, mediaType: string, st: PlayerState): (v: View)
    requires |AvailableSources(tmdbId, imdbId, mediaType)| == 0 || st.selected < |AvailableSources(tmdbId, imdbId, mediaType)|
    ensures v.NoPlayers? <==> !Truthy(tmdbId)
    ensures v.Playing? ==> st.selected < |Names| && v.current == Sources(tmdbId, imdbId, mediaType)[st.selected] && v.current.outcome == Url(v.embedUrl)
    ensures v.Playing? ==> AsksForRussian(v.embedUrl) && Contains(v.embedUrl, tmdbId.value) && v.spinner == st.loading
  {
    AvailableIffTmdb(tmdbId, imdbId, mediaType);
    OfferedUrlsRussian(tmdbId, imdbId, mediaType);
    var available := AvailableSources(tmdbId, imdbId, mediaType);
    if |available| == 0 then NoPlayers
    else
      TmdbAllOffered(tmdbId, imdbId, mediaType);
      var current := available[st.selected];
      Playing(current, current.outcome.url, st.loading)
  }
}

=== FILE: simple_player.dfy ===
/** The simple player: six fixed URL templates over the TMDB id, with no
    filtering and no "unavailable" state. `tmdbId` is the text the template
    literal interpolates (a missing id reads as "undefined"). */
module SimplePlayer {
  import opened Text
  import opened EmbedSources
  import opened Tabs

  const Names: seq<string> := ["VidSrc Primary", "VidSrc XYZ", "VidSrc.to", "2Embed", "Embed.su", "MultiEmbed"]

  function TwoEmbedUrl(tmdbId: string, mediaType: string): string {
    if mediaType == "movie" then "https://www.2embed.cc/embed/" + tmdbId
    else "https://www.2embed.cc/embedtv/" + tmdbId
  }

  /** The `sources` list in declaration order: every entry has a URL. */
  function Sources(tmdbId: string, mediaType: string): (r: seq<Source>)
    ensures |r| == |Names|
    ensures forall i :: 0 <= i < |r| ==> r[i].name == Names[i] && Produces(r[i])
  {
    [ Source("VidSrc Primary", Url("https://vidsrc.me/embed/" + mediaType + "?tmdb=" + tmdbId)),
      Source("VidSrc XYZ", Url("https://vidsrc.xyz/embed/" + mediaType + "?tmdb=" + tmdbId)),
      Source("VidSrc.to", Url("https://vidsrc.to/embed/" + mediaType + "/" + tmdbId)),
      Source("2Embed", Url(TwoEmbedUrl(tmdbId, mediaType))),
      Source("Embed.su", Url("https://embed.su/embed/" + mediaType + "/" + tmdbId)),
      Source("MultiEmbed", Url("https://multiembed.mov/?video_id=" + tmdbId + "&tmdb=1")) ]
  }

  lemma Carries(url: string, prefix: string, id: string, suffix: string)
    requires url == prefix + id + suffix
    ensures Contains(url, id)
  {
    ContainsInfix(prefix, id, suffix);
  }

  /** Every URL carries the TMDB id. */
  lemma EveryUrlCarriesTmdb(tmdbId: string, mediaType: string)
    ensures forall i :: 0 <= i < |Names| ==> Contains(Sources(tmdbId, mediaType)[i].outcome.url, tmdbId)
  {
    var sources := Sources(tmdbId, mediaType);
    Carries(sources[0].outcome.url, "https://vidsrc.me/embed/" + mediaType + "?tmdb=", tmdbId, "");
    Carries(sources[1].outcome.url, "https://vidsrc.xyz/embed/" + mediaType + "?tmdb=", tmdbId, "");
    Carries(sources[2].outcome.url, "https://vidsrc.to/embed/" + mediaType + "/", tmdbId, "");
    if mediaType == "movie" {
      Carries(sources[3].outcome.url, "https://www.2embed.cc/embed/", tmdbId, "");
    } else {
      Carries(sources[3].outcome.url, "https://www.2embed.cc/embedtv/", tmdbId, "");
    }
    Carries(sources[4].outcome.url, "https://embed.su/embed/" + mediaType + "/", tmdbId, "");
    Carries(sources[5].outcome.url, "https://multiembed.mov/?video_id=", tmdbId, "&tmdb=1");
  }

  /** Nothing is ever filtered out: all six sources are always offered. */
  lemma AlwaysSixOffered(tmdbId: string, mediaType: string)
    ensures Available(Sources(tmdbId, mediaType)) == Sources(tmdbId, mediaType)
    ensures |Available(Sources(tmdbId, mediaType))| == 6
  {
    AllProducingKept(Sources(tmdbId, mediaType));
  }

  /** 2Embed takes the film path exactly for "movie", the series path otherwise. */
  lemma TwoEmbedKind(tmdbId: string, mediaType: string)
    ensures StartsWith(TwoEmbedUrl(tmdbId, mediaType), "https://www.2embed.cc/embed/") <==> mediaType == "movie"
    ensures StartsWith(TwoEmbedUrl(tmdbId, mediaType), "https://www.2embed.cc/embedtv/") <==> mediaType != "movie"
  {
    var url := TwoEmbedUrl(tmdbId, mediaType);
    if mediaType == "movie" {
      StartsWithAppend("https://www.2embed.cc/embed/", tmdbId);
      assert url[27] == '/';
    } else {
      StartsWithAppend("https://www.2embed.cc/embedtv/", tmdbId);
      assert url[27] == 't';
    }
  }

  /** Tab clicks keep the selection on one of the six tabs; the initial 0 is one. */
  lemma SelectionAlwaysValid(events: seq<Event>)
    requires forall i :: 0 <= i < |events| ==> Clickable(events[i], |Names|)
    ensures Run(Initial, events).selected < |Names|
  {
    SelectionStaysInRange(Initial, events, |Names|);
  }

  /** `currentSource = sources[selectedSource]` and its iframe. */
  function Render(tmdbId: string, mediaType: string, st: PlayerState): (current: Source)
    requires st.selected < |Names|
    ensures current == Sources(tmdbId, mediaType)[st.selected]
    ensures current.name == Names[st.selected]
    ensures current.outcome.Url? && Contains(current.outcome.url, tmdbId)
  {
    EveryUrlCarriesTmdb(tmdbId, mediaType);
    Sources(tmdbId, mediaType)[st.selected]
  }
}

=== FILE: tabs.dfy ===
/** The tab strip of the Russian-audio and the simple player: a selected
    index and a loading overlay that a tab click raises and the iframe's
    `onLoad` lowers. Neither player has an error overlay. */
module Tabs {

  /** Selected tab and loading overlay. */
  datatype PlayerState = PlayerState(selected: nat, loading: bool)

  const Initial := PlayerState(0, true)

  datatype Event = TabClicked(index: nat) | FrameLoaded

  /** Tabs are drawn from the offered sources, so a click lands on one of them. */
  predicate Clickable(ev: Event, tabs: nat) {
    ev.TabClicked? ==> ev.index < tabs
  }

  /** A tab click: that tab, loading again. */
  function SelectTab(st: PlayerState, index: nat): (r: PlayerState)
    ensures r.selected == index && r.loading
  {
    PlayerState(index, true)
  }

  /** The iframe's `onLoad`: loading ends, the selection stays. */
  function OnLoad(st: PlayerState): (r: PlayerState)
    ensures !r.loading && r.selected == st.selected
  {
    st.(loading := false)
  }

  function Step(st: PlayerState, ev: Event): PlayerState {
    match ev
    case TabClicked(i) => SelectTab(st, i)
    case FrameLoaded => OnLoad(st)
  }

  function Run(st: PlayerState, events: seq<Event>): PlayerState
    decreases |events|
  {
    if |events| == 0 then st else Run(Step(st, events[0]), events[1..])
  }

  /** Clicks on drawn tabs keep the selection on a drawn tab. */
  lemma {:induction false} SelectionStaysInRange(st: PlayerState, events: seq<Event>, tabs: nat)
    requires st.selected < tabs
    requires forall i :: 0 <= i < |events| ==> Clickable(events[i], tabs)
    ensures Run(st, events).selected < tabs
    decreases |events|
  {
    if |events| > 0 {
      SelectionStaysInRange(Step(st, events[0]), events[1..], tabs);
    }
  }

  /** The player opens on the first tab, so any run of clicks on drawn tabs
      leaves the selection on a drawn tab whenever there is one. */
  lemma OpensInRange(events: seq<Event>, tabs: nat)
    requires forall i :: 0 <= i < |events| ==> Clickable(events[i], tabs)
    ensures tabs == 0 || Run(Initial, events).selected < tabs
  {
    if tabs > 0 {
      SelectionStaysInRange(Initial, events, tabs);
    }
  }
}

=== FILE: text.dfy ===
/** String helpers shared by the components: JavaScript truthiness of an
    optional string, prefix/suffix/infix tests, the first occurrence of a
    character, and decimal rendering of ids as a template literal does it. */
module Text {
  import opened Wrappers

  /** `if (s)` on a string-valued property: present and not the empty string. */
  predicate Truthy(s: Option<string>) {
    s.Some? && s.value != ""
  }

  predicate StartsWith(s: string, prefix: string) {
    |prefix| <= |s| && s[..|prefix|] == prefix
  }

  predicate EndsWith(s: string, suffix: string) {
    |suffix| <= |s| && s[|s| - |suffix|..] == suffix
  }

  /** `part` occurs somewhere inside `s`. */
  predicate Contains(s: string, part: string)
    decreases |s|
  {
    StartsWith(s, part) || (|s| > 0 && Contains(s[1..], part))
  }

  /** Whatever surrounds it, a string placed in a template occurs in the result. */
  lemma {:induction false} ContainsInfix(a: string, b: string, c: string)
    ensures Contains(a + b + c, b)
    decreases |a|
  {
    if |a| == 0 {
      assert a + b + c == b + c;
      assert (b + c)[..|b|] == b;
    } else {
      assert (a + b + c)[1..] == a[1..] + b + c;
      ContainsInfix(a[1..], b, c);
    }
  }

  lemma EndsWithAppend(a: string, b: string)
    ensures EndsWith(a + b, b)
  {
    assert (a + b)[|a + b| - |b|..] == b;
  }

  /** A suffix no longer than `b` ends `a + b` exactly when it ends `b`. */
  lemma EndsWithAppendIff(a: string, b: string, suffix: string)
    requires |suffix| <= |b|
    ensures EndsWith(a + b, suffix) <==> EndsWith(b, suffix)
  {
    assert (a + b)[|a + b| - |suffix|..] == b[|b| - |suffix|..];
  }

  /** Two suffixes of one string: the shorter ends the longer. */
  lemma EndsWithBoth(s: string, short: string, long: string)
    requires |short| <= |long| && EndsWith(s, short) && EndsWith(s, long)
    ensures EndsWith(long, short)
  {
    assert long[|long| - |short|..] == s[|s| - |short|..];
  }

  lemma StartsWithAppend(a: string, b: string)
    ensures StartsWith(a + b, a)
  {
    assert (a + b)[..|a|] == a;
  }

  /** The index of the first `c` in `s`, as `indexOf` reports it (`None` for -1). */
  function IndexOf(s: string, c: char): (r: Option<nat>)
    ensures r.None? <==> c !in s
    ensures r.Some? ==> r.value < |s| && s[r.value] == c && c !in s[..r.value]
    decreases |s|
  {
    if |s| == 0 then None
    else if s[0] == c then Some(0)
    else
      match IndexOf(s[1..], c)
      case None => None
      case Some(k) =>
        assert s[..k + 1] == [s[0]] + s[1..][..k];
        Some(k + 1)
  }

  /** The first `c` in `a + [c] + b`, when `a` has none, is the one after `a`. */
  lemma {:induction false} IndexOfAfter(a: string, c: char, b: string)
    requires c !in a
    ensures IndexOf(a + [c] + b, c) == Some(|a|)
    decreases |a|
  {
    if |a| > 0 {
      assert (a + [c] + b)[1..] == a[1..] + [c] + b;
      assert a[0] in a;
      IndexOfAfter(a[1..], c, b);
    }
  }

  /** `s.split(c)[0]`: the text before the first `c`, or all of `s` when there is none. */
  function Before(s: string, c: char): (r: string)
    ensures c !in r
    ensures StartsWith(s, r)
    ensures r == s || s[|r|] == c
  {
    match IndexOf(s, c)
    case None => s
    case Some(k) => s[..k]
  }

  predicate IsDigit(ch: char) {
    '0' <= ch <= '9'
  }

  function DigitChar(d: nat): (ch: char)
    requires d < 10
    ensures IsDigit(ch) && (ch - '0') as nat == d
  {
    "0123456789"[d]
  }

  /** A non-negative integer in plain decimal, no sign, no leading zeros: how
      `${n}` renders an id that is a safe integer (below 2^53). */
  function Decimal(n: nat): (s: string)
    ensures |s| > 0
    ensures forall i :: 0 <= i < |s| ==> IsDigit(s[i])
    ensures n < 10 ==> |s| == 1
    ensures n >= 10 ==> s[0] != '0'
    decreases n
  {
    if n < 10 then [DigitChar(n)] else Decimal(n / 10) + [DigitChar(n % 10)]
  }

  /** Reads a non-empty run of decimal digits, leading zeros included;
      anything else is `None`. */
  function ParseDigits(s: string): (r: Option<nat>)
    ensures r.Some? <==> |s| > 0 && forall i :: 0 <= i < |s| ==> IsDigit(s[i])
    decreases |s|
  {
    if |s| == 0 || !IsDigit(s[|s| - 1]) then None
    else if |s| == 1 then Some((s[0] - '0') as nat)
    else
      match ParseDigits(s[..|s| - 1])
      case None => None
      case Some(high) => Some(high * 10 + (s[|s| - 1] - '0') as nat)
  }

  /** Reads the decimal form `Decimal` writes: digits only, and no leading
      zero unless the number is zero itself. */
  function ParseDecimal(s: string): (r: Option<nat>)
    ensures r.Some? <==> |s| > 0 && (forall i :: 0 <= i < |s| ==> IsDigit(s[i])) && (|s| == 1 || s[0] != '0')
  {
    if |s| > 1 && s[0] == '0' then None else ParseDigits(s)
  }

  lemma {:induction false} DigitsRoundTrip(n: nat)
    ensures ParseDigits(Decimal(n)) == Some(n)
    decreases n
  {
    if n >= 10 {
      var s := Decimal(n);
      assert s == Decimal(n / 10) + [DigitChar(n % 10)];
      assert s[..|s| - 1] == Decimal(n / 10);
      DigitsRoundTrip(n / 10);
    }
  }

  lemma {:induction false} DecimalRoundTrip(n: nat)
    ensures ParseDecimal(Decimal(n)) == Some(n)
  {
    DigitsRoundTrip(n);
  }

  /** A digit run without a leading zero is the rendering of the number it reads as. */
  lemma {:induction false} DigitsCanonical(s: string, n: nat)
    requires ParseDigits(s) == Some(n)
    requires |s| == 1 || s[0] != '0'
    ensures s == Decimal(n)
    decreases |s|
  {
    if |s| == 1 {
      assert s == [DigitChar(n)];
    } else {
      var p := s[..|s| - 1];
      var high := ParseDigits(p).value;
      assert p[0] == s[0];
      DigitsCanonical(p, high);
      assert high != 0 by {
        assert Decimal(0) == "0";
      }
      assert n / 10 == high && n % 10 == (s[|s| - 1] - '0') as nat;
      assert s == p + [s[|s| - 1]];
    }
  }

  /** `ParseDecimal` accepts nothing but `Decimal`'s output: what it reads
      renders back to the very same text. */
  lemma DecimalCanonical(s: string)
    ensures ParseDecimal(s).Some? ==> s == Decimal(ParseDecimal(s).value)
  {
    if ParseDecimal(s).Some? {
      DigitsCanonical(s, ParseDecimal(s).value);
    }
  }
}

=== FILE: wrappers.dfy ===
/** The optional value used wherever the front-end reads a property that may be
    `null` or `undefined`. */
module Wrappers {

  datatype Option<+T> = None | Some(value: T) {

    /** The wrapped value, or `default` when there is none. */
    function GetOr(default: T): T {
      match this
      case Some(v) => v
      case None => default
    }
  }
}
